=== FILE: README.md ===
# kiss3d core, modelled in Dafny

This project models the core of kiss3d, an early Rust 3D renderer built on OpenGL and GLFW. The model has four parts:

- **Framebuffer manager** (`Framebuffers`): the render-target switcher. It remembers the bound framebuffer and its colour and depth attachments, and issues a binding call only when a request differs from what it remembers.
- **Scene objects** (`Objects`): objects are pairs of shared handles, one to a per-object data block and one to a mesh. Copies share both handles, and equality compares the data handle only. `upload` draws an object, and the setters change its data block in place.
- **Window** (`Window`, `Quad`):
  - the object list and the path-keyed geometry registry;
  - removal by identity, and the frame cap with its end-of-frame throttle;
  - event dispatch through a user handler;
  - the frame itself: camera passes over the scene, an optional post-processing stage, presentation and the throttle;
  - the subdivided quad's vertex and index generation.
- **First-person camera** (`FirstPerson`): eye, yaw and pitch, the pitch clamp, the mouse and keyboard handlers, and the cached view-projection matrix with its inverse.

What the renderer does to the outside world is modelled as a call trace, `Trace.Call`. The trace is an ordered sequence of GL calls and of requests to collaborators: the camera, the shader selector, the line batcher, the post-processing effect and the mesh loader. `Framebuffers.GlState` with `Framebuffers.Run` gives the framebuffer-related calls their meaning. This reference lets the model prove two things: the manager's registers are a sound cache of the driver state, and every draw of a frame lands in the selected target: its framebuffer is bound, and an offscreen target's textures are attached to it.

Rust objects shared through `RcMut` live in an arena, `Objects.Store`, addressed by handles. Panics (`assert!`, `fail!`, `unwrap` of a missing built-in geometry) become the `Err` side of `Common.Result`.

Integer behaviour is written out where it matters:

- quad vertex indices are `u32` and wrap modulo 2^32 (`Quad.Wrap32`);
- `f32 as i32` truncates toward zero (`LinAlg.Trunc`);
- the frame budget uses integer division;
- π is the `f32` value 3.1415927410125732.

Trigonometry and matrix algebra are not interpreted. The look-at angles and the view directions are supplied by function parameters (`FirstPerson.Aim`, `FirstPerson.Basis`), and matrices are terms (`FirstPerson.Matrix`).

## Model

| member | source | states |
|---|---|---|
| Framebuffers.TextureId | src/resources/framebuffers_manager.rs:27-32 | the screen has colour handle 0; an offscreen target reports its own colour texture |
| Framebuffers.DepthId | src/resources/framebuffers_manager.rs:35-40 | the screen has depth handle 0; an offscreen target reports its own depth texture |
| Framebuffers.Resize | src/resources/framebuffers_manager.rs:43-65 | resizing the screen only sets the viewport to the truncated size. Resizing an offscreen target reallocates both textures in place: no new texture is generated, only the target's own handles (or 0) are bound, and no framebuffer binding or attachment changes |
| Framebuffers.NewRenderTarget | src/resources/framebuffers_manager.rs:98-131 | an offscreen target holds the two generated handles, has colour and depth storage of the requested size, and leaves no texture bound |
| Framebuffers.New | src/resources/framebuffers_manager.rs:79-94 | a new manager owns the generated framebuffer, binds the screen, and starts with all three registers at 0, in sync with the screen |
| Framebuffers.DoSelect | src/resources/framebuffers_manager.rs:171-177 | a framebuffer is bound if and only if it differs from the remembered one; afterwards it is remembered, and the attachment registers are untouched |
| Framebuffers.Select | src/resources/framebuffers_manager.rs:139-169 | after selection the registers describe the target. The framebuffer is rebound, and each attachment re-attached, exactly when its register differed. Each such call is issued once, in the order framebuffer, colour, depth. No other call is issued, and no call at all when everything already matched |
| Framebuffers.SelectIdempotent | src/resources/framebuffers_manager.rs:139-169 | selecting the same target a second time changes nothing and issues no call |
| Framebuffers.ScreenThenOffscreen | src/resources/framebuffers_manager.rs:139-168 | selecting the screen forgets both attachments, so the next offscreen selection re-attaches every non-zero handle |
| Framebuffers.NewMirrors | src/resources/framebuffers_manager.rs:79-94 | whatever the driver held before, after creation the registers agree with the driver's actual binding |
| Framebuffers.SelectSound | src/resources/framebuffers_manager.rs:139-177 | checked against the driver semantics, selection keeps the register cache sound. It leaves the target's framebuffer bound, with the target's non-zero textures attached to it, although redundant calls are skipped |
| Framebuffers.ResizeKeepsMirror | src/resources/framebuffers_manager.rs:43-65 | a resize leaves the driver's framebuffer state, and so the cache, exactly as it was |
| Objects.AddMesh | src/window.rs:161-167 | a new shared mesh gets a handle not in use before; every existing allocation is kept unchanged |
| Objects.NewObject | src/object.rs:41-63 | a new object has a freshly allocated data block holding the given colour, texture and diagonal scale, the identity transform, and is visible. It points at the given mesh, and nothing else in the store changes |
| Objects.Clone | src/object.rs:32-37 | a copy is equal to the original and shares its mesh |
| Objects.ConstructedObjectsDistinct | src/object.rs:276-280 | two objects built in turn from identical arguments are not equal, although their data blocks hold equal values: equality is identity of the data block |
| Objects.Upload | src/object.rs:66-103 | an invisible object issues no call. A visible one sends its transform first. Its scale and colour uniforms, its mesh binding and its texture binding all come before its single draw, which has three indices per face. It ends by unbinding its mesh, and never touches the framebuffer state |
| Objects.ToggleVisibilityDraws | src/object.rs:106-108 | hiding an object removes its draw, and showing it again restores exactly one draw of its whole mesh |
| Objects.VisibilityIsShared | src/object.rs:106-113 | a visibility change made through one object is seen through every object equal to it, and by no other object |
| Objects.SetVisible | src/object.rs:106-108 | visibility reads back as set, and nothing else in the store changes |
| Objects.SetScale | src/object.rs:116-123 | only the object's data block changes, and only its scale, which becomes the diagonal (sx, sy, sz) |
| Objects.SetColor | src/object.rs:137-143 | only the object's data block changes, and only its colour |
| Objects.SetTexture | src/object.rs:149-151 | only the object's data block changes, and only its texture, which becomes the handle the registry gave for the path |
| Objects.SetTransformation | src/object.rs:191-193 | the transform reads back as set, and nothing else in the store changes |
| Objects.EditTransform | src/object.rs:155-273 | an in-place transform edit (look-at, or an append, prepend or set of a transformation, rotation or translation) changes only the transform of the object's data block |
| Objects.ScaleAndColorCommute | src/object.rs:116-143 | setters of different fields do not interfere: their order does not matter |
| Objects.SettersReachUpload | src/object.rs:66-151 | what a setter stores is what the next upload of a visible object sends: the edited transform first, and the new scale, colour and texture among its uniforms and bindings |
| Objects.ModifyMesh | src/object.rs:127-134 | the mesh becomes what the edit produced. The geometry is re-uploaded exactly when the edit asks for it, and no data block changes |
| Objects.MeshIsShared | src/object.rs:127-134 | every object over the same mesh sees a modification made through one of them |
| Objects.TransformCopy | src/object.rs:179-189 | every copying transform variant fails with "cannot clone", whatever object and edit it is given |
| Quad.QuadMesh | src/window.rs:309-367 | the quad fails exactly when a subdivision count is zero. Otherwise it has (hs+1)(ws+1) vertices, normals and texture coordinates, 2·hs·ws triangles, and six indices per cell |
| Quad.BuildVertices | src/window.rs:329-335 | the nested vertex loop produces the grid points row by row, each row from column 0 to ws |
| Quad.BuildNormals | src/window.rs:337-340 | the normal loop produces the requested number of normals, each (1, 0, 0) |
| Quad.BuildTriangles | src/window.rs:355-361 | the nested loop produces, cell by cell in row order, the lower-left then the upper-right triangle of each cell |
| Quad.BuildQuadMesh | src/window.rs:309-367 | the imperative construction (subdivision check, then the vertex, normal and triangle loops) yields exactly the reference mesh |
| Quad.GridAt | src/window.rs:329-335 | grid point (i, j) is stored at index i·(ws+1)+j |
| Quad.TriangleAt | src/window.rs:355-361 | the triangles of cell (i, j) are at positions 2(i·ws+j) and 2(i·ws+j)+1 |
| Quad.TrianglesInRange | src/window.rs:342-361 | every index of every triangle is a valid vertex index. This holds even when the 32-bit indices wrap around, since wrapping only lowers an index |
| Quad.CellCorners | src/window.rs:342-349 | when the vertex count fits in 32 bits, the lower-left triangle of cell (i, j) joins its corners (i+1, j), (i, j), (i+1, j+1), and the upper-right one joins (i, j), (i, j+1), (i+1, j+1) |
| Quad.FourByFourQuad | src/window.rs:309-367 | a 4 × 4 quad has 25 vertices and 32 triangles |
| Window.SetFramerateLimit | src/window.rs:100-103 | a limit of 0 is refused. No limit clears the budget. A limit of f frames per second stores the largest whole number of milliseconds m with m·f ≤ 1000, and nothing else changes |
| Window.Throttle | src/window.rs:685-694 | without a cap the frame never sleeps. With a cap, it sleeps exactly when fewer whole milliseconds than the cap have elapsed, for the remainder of the budget |
| Window.FiftyFpsExample | src/window.rs:100-103 | a 50 fps cap is a 20 ms budget, and a frame that took 5 ms sleeps 15 ms |
| Window.LastMatch | src/window.rs:140 | finds the last position holding an object equal to the one given, or reports that there is none |
| Window.SwapRemove | src/window.rs:141-144 | removing position i moves the last element into i. Every other position keeps its element, and the multiset loses exactly the removed element |
| Window.Remove | src/window.rs:139-147 | removal drops the last entry identical to the object when there is one, and leaves the list alone otherwise. No other window state changes |
| Window.RemoveKeepsOthers | src/window.rs:139-147 | removal keeps every non-identical object with its multiplicity, and shortens the list by one exactly when an identical entry exists |
| Window.AddObj | src/window.rs:154-183 | a model file is parsed only the first time its path is seen, and later calls reuse the registered mesh. The new object is distinct, white, visible, default-textured and uniformly scaled, and is appended to the scene. The window's other fields are unchanged |
| Window.AddObjTwiceSharesMesh | src/window.rs:154-183 | adding one file twice parses it at most once and yields two distinct objects that share one mesh |
| Window.AddQuad | src/window.rs:309-378 | the quad is refused for zero subdivisions. Otherwise it is appended as a new object over a fresh mesh holding exactly the quad's geometry. The object's new data block is white, visible, default-textured, unit-scaled and untransformed. No other mesh or data block changes, and the window's other fields, the registry included, are unchanged |
| Window.AddPrimitive | src/window.rs:191-296 | a built-in primitive fails when its geometry is not registered. Otherwise it appends a new object over the registered mesh and allocates no mesh. Its new data block is white, visible, default-textured and untransformed, scaled by the primitive's dimensions (radius over 0.5). No other data block changes, and the window's other fields are unchanged |
| Window.UpdateViewport | src/window.rs:729-734 | a resize first sets the scissor box, then the screen viewport, to the truncated size, and then resizes the post-processing target. It never touches framebuffer bindings, never draws, and never reaches the camera |
| Window.UpdateViewportReallocates | src/window.rs:729-734 | when the post-processing target is offscreen, a resize reallocates its colour and its depth storage at the truncated size |
| Window.Dispatch | src/window.rs:444-461 | an event the handler refuses has no effect. An accepted escape release closes the window and goes no further. Any other accepted event reaches the camera, after a viewport update when it is a resize |
| Window.DispatchAllForwards | src/window.rs:440-466 | over a whole queue, the window closes exactly when an accepted event is an escape release, and the camera receives exactly the other accepted events, in queue order |
| Window.PollEvents | src/window.rs:440-466 | after polling the queue is empty. The window closes exactly when the handler accepted an escape release, the camera receives the other accepted events in order, nothing is drawn, and no other window state changes |
| Window.SceneSetup | src/window.rs:704-720 | the scene preamble draws lines exactly when the batcher has some, ends by setting the polygon mode the wireframe flag asks for, and draws no object |
| Window.RenderScene | src/window.rs:702-726 | a scene render draws each visible object once, in list order, with its mesh's index count, and never changes the framebuffer state |
| Window.PassCalls | src/window.rs:646-658 | each pass first hands the camera matrices to the line program and then to the object program, then renders the scene |
| Window.Passes | src/window.rs:646-658 | n passes draw the scene's visible objects n times over, and never change the framebuffer state |
| Window.PassSchedule | src/window.rs:646-655 | the camera's part of n passes: for each pass p, in order, the start of pass p at position 3p, then the upload of pass p's matrices to the line program, then to the object program |
| Window.PassCallsSchedule | src/window.rs:647-657 | within one pass, the only pass start and camera uploads are the pass's own, line program first; rendering the scene adds none |
| Window.PassesFollowSchedule | src/window.rs:646-658 | the pass starts and camera uploads of n passes are exactly the schedule of passes 0 to n − 1 |
| Window.FramePasses | src/window.rs:629-700 | in a whole frame, the pass starts and camera uploads are exactly the schedule of passes 0 to numPasses − 1: nothing before or after the passes starts a pass or uploads the camera |
| Window.PostProcess | src/window.rs:665-680 | the post-processing stage first restores filled polygons when wireframe mode is on; it issues that reset exactly in wireframe mode. It leaves the manager bound to the screen and draws nothing of the scene. Its last two calls are the effect's update, with the fixed 0.016 s step and the frame's size and clip planes, and then the effect's draw of the target's colour and depth textures |
| Window.PostProcessOnScreen | src/window.rs:665-680 | checked against the driver semantics, framebuffer 0 (the screen) is bound when the effect's draw is issued |
| Window.Draw | src/window.rs:629-700 | a frame starts with the camera update and ends with the manager bound to the screen. Only the manager's state in the window changes |
| Window.FrameTail | src/window.rs:659-694 | after the passes, the frame draws nothing, leaves the manager on the screen whenever post-processing ran, and ends with the buffer swap followed by the throttle |
| Window.FrameEndsPresenting | src/window.rs:682-694 | a whole frame ends with the buffer swap followed by the throttle |
| Window.FrameThrottles | src/window.rs:682-694 | a frame ends with the buffer swap and then a sleep for the rest of the budget exactly when a cap is set and fewer whole milliseconds than the cap have elapsed. Otherwise the buffer swap is its last call |
| Window.FrameDraws | src/window.rs:629-700 | the only draws of a frame are those of its passes: every visible object once per pass, in list order |
| Window.DrawTargetsScene | src/window.rs:636-680 | checked against the driver semantics, every draw of a frame lands in the scene target. With an effect attached, that is the manager's framebuffer with the post-processing target's non-zero colour and depth textures attached: the textures the effect then reads. Otherwise it is the screen. The manager's cache stays sound across the frame |
| FirstPerson.UpdateRestrictions | src/camera/first_person.rs:96-105 | the clamped pitch lies in [0.0001, π − 0.0001]. It is left alone exactly when already in that range, and otherwise set to the nearer bound |
| FirstPerson.UpdateProjViews | src/camera/first_person.rs:138-141 | recomputing the cache makes it the view-projection of the current pose and its inverse, and changes nothing else |
| FirstPerson.LookAtZ | src/camera/first_person.rs:75-85 | the camera moves to the eye with the yaw and pitch aiming at the target (unclamped), and its cache is fresh |
| FirstPerson.NewWithFrustum | src/camera/first_person.rs:47-71 | a new camera has the given frustum and an 800 × 600 projection. Its sensitivities are 0.005, 0.005 and 0.5, it looks from the eye at the target, and its cache has been computed once |
| FirstPerson.New | src/camera/first_person.rs:41-44 | the default camera has a 45° field of view and clip planes 0.1 and 1024 |
| FirstPerson.LeftDrag | src/camera/first_person.rs:108-114 | a left drag turns the yaw and pitch by the displacement times the sensitivities, clamps the pitch, and refreshes the cache |
| FirstPerson.RightDrag | src/camera/first_person.rs:117-126 | a right drag slides the eye along the drag plane's tangent and bitangent by a thousandth of the displacement. It keeps the yaw, clamps the pitch, and refreshes the cache |
| FirstPerson.HandleScroll | src/camera/first_person.rs:129-136 | a scroll moves the eye along the view direction by the move step per unit of scroll, and refreshes the cache |
| FirstPerson.NudgesCombine | src/camera/first_person.rs:200-214 | the four arrow-key nudges add up to one move along each axis by the net amount of its key pair |
| FirstPerson.Update | src/camera/first_person.rs:195-218 | arrow keys move the eye by the move step along the forward axis (up and down) and the right axis (left and right) of the frame's initial view. Opposite keys cancel, the yaw is kept, the pitch clamped, and the cache refreshed once |
| FirstPerson.HandleEvent | src/camera/first_person.rs:157-181 | a cursor move records the position. It applies the left-drag handler and then the right-drag handler, each only when its button is held, both with the displacement from the previously recorded position. A scroll moves the eye, and a resize rebuilds the projection for the new size. Every other event changes nothing, and a fresh cache stays fresh |
| FirstPerson.Transformation | src/camera/first_person.rs:187-189 | with a fresh cache, the transformation is the view-projection of the current pose |
| FirstPerson.InvTransformation | src/camera/first_person.rs:191-193 | with a fresh cache, the inverse transformation is the inverse of the transformation |
| FirstPerson.LeftDragsKeepPitch | src/camera/first_person.rs:96-114 | after any non-empty run of left drags the pitch is inside the margin, and the cache is fresh and recomputed once per drag |
| FirstPerson.EventsKeepPitch | src/camera/first_person.rs:157-218 | once the pitch is in range, no event and no keyboard update takes it out |
| FirstPerson.EventsKeepCacheFresh | src/camera/first_person.rs:157-181 | over any sequence of events, a fresh cache stays fresh: no event path changes the pose without recomputing it |
| FirstPerson.QueriesAreReadOnly | src/camera/first_person.rs:183-193 | with a fresh cache, the queries report the view-projection of the current eye and pose, and its inverse |

## Left out

- Raw GL arguments: locations, enums, matrix layout and buffer contents. The trace keeps the calls' order and the handles and sizes that matter, not their encoding.
- `f32` rounding: sizes, angles and positions are reals. Only the `as i32` truncation of window sizes is modelled.
- The trigonometry and matrix algebra of the camera and of object transforms (`at`, `view_transform`, `look_at_z`, perspective and inverse matrices), because there is no real trigonometry to verify against. They are function parameters or uninterpreted terms.
- GLFW and window-system calls. Mouse-button and key state is a parameter of the camera handlers.
- `RWArc` locking of the event queue. The queue is a plain sequence, and concurrency is out of scope.
- `time::precise_time_ns` and `Timer`. The elapsed time is a parameter of the frame (`FrameInput`), and the sleep is a trace entry.
- The line batcher, texture registry, shader selector, mesh binding/upload and post-processing effects. These are collaborators outside this model, so they appear only as trace entries: their requests are recorded, not their internals.
- The OBJ parser, which is the `load` parameter of `Window.AddObj`. Model files are not part of this model.
- The effect of the user event handler on the window. The handler is modelled as a decision `Event -> bool` per event. In the source it may also mutate the window before the decision.
- The `as GLint` casts of the index count in `upload` and of the texture sizes in `FramebuffersManager::new_render_target` (src/resources/framebuffers_manager.rs:111,125). Sizes are unbounded naturals here, and the casts would only matter beyond 2^31.
- Window operations that only set or read a field: close, hide, show, wireframe mode, background colour, draw_line, the object-list accessors, width and height.
- Window operations outside the frame logic: set_light and the light mode (including the per-frame light update at src/window.rs:632-635), set_camera, project/unproject, `spawn`/`do_spawn` and GL initialisation, and `render_loop`'s outer loop with its always-accepting default handler. `poll_events` and `draw` are modelled separately.
- `Drop` of the framebuffer manager and of render targets (releasing GL names).
- Object geometry helpers (`transformation`, `inv_transformation`, the `Transform`, `Rotate` and `Translation` accessors, vector transforms). They read the transform term, and the edits are covered by `Objects.EditTransform`.
- Quad vertex positions and texture coordinates. They are functions of the grid point, and the grid point stands for them. `inv_wind` is never called and is not modelled.
- Objects.TransformCopy: the source panics. The model returns `Err(CannotClone)` and does not stop the program.
- Window.RenderScene: list order is stated through the sequence of draw counts. That sequence identifies each draw by its mesh's index count, not by the object that issued it.
- Window.Draw: its contract speaks of the frame's state. The draws are stated by `Window.FrameDraws`. Their framebuffer and its attached textures are stated by `Window.DrawTargetsScene`, the order of the passes and their camera uploads by `Window.FramePasses`, and the frame's ending by `Window.FrameThrottles`.
- Window.SceneSetup: whether the line batcher has lines to draw is one flag of the window (`linesPending`), fixed for the whole frame. The source asks the batcher again in every pass (src/window.rs:710). The batcher is not part of this model. If rendering empties it, then only the first pass of a frame draws lines in the source, whereas the model draws them in every pass.
- The registry's default texture: the window holds its handle (`defaultTexture`) and assumes it exists. The source unwraps `textures_manager::singleton().get("default")` when adding objects (src/window.rs:157, 194, 215, 238, 261, 284, 367), and that unwrap would panic if the texture were missing. The texture registry is not part of this model, so that panic is not among the `Err` cases.
- FirstPerson.LeftDragsKeepPitch: pitch is a real number here, so the case where `look_at_z` is given an eye equal to the target is not modelled. There the source computes acos(0/0), a NaN pitch. Both clamp comparisons are false for NaN, so the pitch stays NaN through every later drag and is never brought into range.
- FirstPerson.UpdateRestrictions: the clamp is stated for real pitches only. For a NaN pitch the source leaves the pitch as it is, outside the range.
- FirstPerson.HandleEvent: the mouse-button state is one value per event. In the source it is polled separately per button, at the moment the event is handled.

Where the code and its documentation disagree, the model follows the code:

- The pitch clamp is closed at both ends: a pitch of exactly 0.0001 is kept.
- `remove` deletes the last identical entry (`rposition`) and fills the hole with the list's last element.
- The default move step is 0.5, although the field's documentation gives 0.1.

=== FILE: common.dfy ===
/** Failure-carrying result types shared by the whole model.
    A Rust `assert!`, `fail!` or `unwrap` on an absent value aborts the running thread;
    here it becomes an `Err` carrying the reason, so callers see the error path. */
module Common {

  datatype Option<+T> = None | Some(value: T)

  /** Why an operation of the renderer aborts instead of returning. */
  datatype Failure =
    | ZeroSubdivisions          // `add_quad` with a zero subdivision count
    | ZeroFramerate             // `set_framerate_limit(Some(0))`
    | CannotClone               // the `*_cpy` transformation variants of an object
    | MissingGeometry(name: string)  // a built-in geometry absent from the registry

  datatype Result<+T> = Ok(value: T) | Err(error: Failure)
}

=== FILE: events.dfy ===
/** The input and window events delivered by the windowing library. */
module Events {
  import opened LinAlg

  datatype Key = KeyEscape | KeyUp | KeyDown | KeyLeft | KeyRight | OtherKey(code: int)

  datatype MouseButton = MouseButtonLeft | MouseButtonRight | OtherButton(code: int)

  datatype Event =
    | KeyPressed(key: Key)
    | KeyReleased(key: Key)
    | ButtonPressed(button: MouseButton, mods: int)
    | ButtonReleased(button: MouseButton, mods: int)
    | CursorPos(x: real, y: real)
    | Scroll(xoff: real, yoff: real)
    | FramebufferSize(w: real, h: real)
}

=== FILE: first_person.dfy ===
/** The first-person camera: an eye position, a yaw and a pitch, mouse and keyboard
    sensitivities, frustum parameters, and a cached view-projection matrix with its
    inverse. Every mutating operation ends in exactly one recomputation of the cache;
    queries read it. The field `projViewUpdates` counts the recomputations.
    Trigonometry and matrix algebra are not interpreted: look-at angles and view
    directions are supplied by the `Aim` and `Basis` functions, and matrices are terms. */
module FirstPerson {
  import opened LinAlg
  import opened Events

  /** Margin that keeps the pitch away from the poles. */
  const Margin: real := 0.0001

  predicate PitchInRange(pitch: real) {
    Margin <= pitch <= Pi - Margin
  }

  /** Clamps the pitch into [Margin, π − Margin]. */
  function UpdateRestrictions(pitch: real): (r: real)
    ensures PitchInRange(r)
    ensures r == pitch <==> PitchInRange(pitch)
    ensures pitch <= Margin ==> r == Margin
    ensures pitch > Pi - Margin ==> r == Pi - Margin
  {
    var p := if pitch <= Margin then Margin else pitch;
    if p > Pi - Margin then Pi - Margin else p
  }

  /** Clamping twice is clamping once. */
  lemma RestrictionsIdempotent(pitch: real)
    ensures UpdateRestrictions(UpdateRestrictions(pitch)) == UpdateRestrictions(pitch)
  {
  }

  datatype Projection = Perspective(width: real, height: real, fov: real, znear: real, zfar: real)

  /** Matrices as terms: the zero matrix, the view-projection of a pose, an inverse. */
  datatype Matrix = Zero | ProjView(projection: Projection, eye: Vec3, yaw: real, pitch: real) | Inverse(m: Matrix)

  datatype Camera = Camera(
    eye: Vec3, yaw: real, pitch: real,
    yawStep: real, pitchStep: real, moveStep: real,
    fov: real, znear: real, zfar: real,
    projection: Projection,
    projView: Matrix, invProjView: Matrix,
    lastCursorPos: Vec2,
    projViewUpdates: nat)

  /** The cache holds the view-projection of the current pose and projection. */
  predicate Fresh(c: Camera) {
    c.projView == ProjView(c.projection, c.eye, c.yaw, c.pitch) && c.invProjView == Inverse(c.projView)
  }

  /** The camera state without its cache and counter. */
  function Pose(c: Camera): Camera {
    c.(projView := Zero, invProjView := Zero, projViewUpdates := 0)
  }

  /** Yaw and pitch looking from an eye to a target (atan2 and acos of the offset). */
  datatype Angles = Angles(yaw: real, pitch: real)
  type Aim = (Vec3, Vec3) -> Angles

  /** Directions derived from a pose (eye, yaw, pitch): the view's forward and right
      axes, and the tangent and bitangent of the drag plane. */
  datatype Directions = Directions(front: Vec3, right: Vec3, tangent: Vec3, bitangent: Vec3)
  type Basis = (Vec3, real, real) -> Directions

  /** Recomputes the cache from the pose. */
  function UpdateProjViews(c: Camera): (c': Camera)
    ensures Fresh(c') && Pose(c') == Pose(c)
    ensures c'.projViewUpdates == c.projViewUpdates + 1
  {
    var pv := ProjView(c.projection, c.eye, c.yaw, c.pitch);
    c.(projView := pv, invProjView := Inverse(pv), projViewUpdates := c.projViewUpdates + 1)
  }

  /** Places the eye and aims at `at`. The pitch is not clamped here. */
  function LookAtZ(c: Camera, eye: Vec3, at: Vec3, aim: Aim): (c': Camera)
    ensures c'.eye == eye && c'.yaw == aim(eye, at).yaw && c'.pitch == aim(eye, at).pitch
    ensures Pose(c') == Pose(c).(eye := eye, yaw := aim(eye, at).yaw, pitch := aim(eye, at).pitch)
    ensures Fresh(c') && c'.projViewUpdates == c.projViewUpdates + 1
  {
    var a := aim(eye, at);
    UpdateProjViews(c.(eye := eye, yaw := a.yaw, pitch := a.pitch))
  }

  /** A camera with the given frustum looking from `eye` at `at`; the sensitivities
      take their defaults and the projection starts at an 800 x 600 viewport. */
  function NewWithFrustum(fov: real, znear: real, zfar: real, eye: Vec3, at: Vec3, aim: Aim): (c: Camera)
    ensures c.yawStep == 0.005 && c.pitchStep == 0.005 && c.moveStep == 0.5
    ensures ClipPlanes(c) == (znear, zfar) && c.fov == fov
    ensures c.projection == Perspective(800.0, 600.0, fov, znear, zfar)
    ensures c.eye == eye && c.yaw == aim(eye, at).yaw && c.pitch == aim(eye, at).pitch
    ensures c.lastCursorPos == Vec2(0.0, 0.0)
    ensures Fresh(c) && c.projViewUpdates == 1
  {
    var c0 := Camera(Vec3(0.0, 0.0, 0.0), 0.0, 0.0, 0.005, 0.005, 0.5, fov, znear, zfar,
                     Perspective(800.0, 600.0, fov, znear, zfar), Zero, Zero, Vec2(0.0, 0.0), 0);
    LookAtZ(c0, eye, at, aim)
  }

  /** The default frustum: a 45 degree field of view, near plane 0.1, far plane 1024. */
  function New(eye: Vec3, at: Vec3, aim: Aim): (c: Camera)
    ensures c.fov == 45.0 * Pi / 180.0
    ensures ClipPlanes(c) == (0.1, 1024.0)
    ensures c.eye == eye && Fresh(c) && c.projViewUpdates == 1
  {
    NewWithFrustum(45.0 * Pi / 180.0, 0.1, 1024.0, eye, at, aim)
  }

  /** Left-button drag: turns by the displacement scaled by the sensitivities. */
  function LeftDrag(c: Camera, d: Vec2): (c': Camera)
    ensures c'.yaw == c.yaw + d.x * c.yawStep
    ensures c'.pitch == UpdateRestrictions(c.pitch + d.y * c.pitchStep)
    ensures PitchInRange(c'.pitch)
    ensures Pose(c') == Pose(c).(yaw := c'.yaw, pitch := c'.pitch)
    ensures Fresh(c') && c'.projViewUpdates == c.projViewUpdates + 1
  {
    var c1 := c.(yaw := c.yaw + d.x * c.yawStep, pitch := c.pitch + d.y * c.pitchStep);
    UpdateProjViews(c1.(pitch := UpdateRestrictions(c1.pitch)))
  }

  /** Right-button drag: slides the eye in the plane orthogonal to the view. */
  function RightDrag(c: Camera, d: Vec2, basis: Basis): (c': Camera)
    ensures var dirs := basis(c.eye, c.yaw, c.pitch);
      c'.eye == Add(Add(c.eye, Mul(dirs.tangent, 0.01 * d.x / 10.0)), Mul(dirs.bitangent, 0.01 * d.y / 10.0))
    ensures c'.yaw == c.yaw && c'.pitch == UpdateRestrictions(c.pitch)
    ensures Pose(c') == Pose(c).(eye := c'.eye, pitch := c'.pitch)
    ensures Fresh(c') && c'.projViewUpdates == c.projViewUpdates + 1
  {
    var dirs := basis(c.eye, c.yaw, c.pitch);
    var eye := Add(Add(c.eye, Mul(dirs.tangent, 0.01 * d.x / 10.0)), Mul(dirs.bitangent, 0.01 * d.y / 10.0));
    UpdateProjViews(c.(eye := eye, pitch := UpdateRestrictions(c.pitch)))
  }

  /** Scrolling moves the eye along the view direction by `moveStep` per unit. */
  function HandleScroll(c: Camera, yoff: real, basis: Basis): (c': Camera)
    ensures c'.eye == Add(c.eye, Mul(basis(c.eye, c.yaw, c.pitch).front, c.moveStep * yoff))
    ensures c'.yaw == c.yaw && c'.pitch == UpdateRestrictions(c.pitch)
    ensures Pose(c') == Pose(c).(eye := c'.eye, pitch := c'.pitch)
    ensures Fresh(c') && c'.projViewUpdates == c.projViewUpdates + 1
  {
    var front := basis(c.eye, c.yaw, c.pitch).front;
    UpdateProjViews(c.(eye := Add(c.eye, Mul(front, c.moveStep * yoff)), pitch := UpdateRestrictions(c.pitch)))
  }

  /** Polled state of the arrow keys. */
  datatype Keys = Keys(up: bool, down: bool, right: bool, left: bool)

  /** Moves `e` by `k` along `dir` when the key is held. */
  function Nudge(e: Vec3, held: bool, dir: Vec3, k: real): Vec3 {
    if held then Add(e, Mul(dir, k)) else e
  }

  /** Signed amount a pair of opposite keys moves by: `k` for the first, `-k` for the
      second, nothing when both or neither are held. */
  function Net(plus: bool, minus: bool, k: real): real {
    (if plus then k else 0.0) - (if minus then k else 0.0)
  }

  /** One coordinate of the four key nudges. */
  function NudgeChain(x: real, fx: real, rx: real, keys: Keys, k: real): real {
    Step(Step(Step(Step(x, keys.up, fx, k), keys.down, fx, -k), keys.right, rx, -k), keys.left, rx, k)
  }

  /** One coordinate of one nudge. */
  function Step(x: real, held: bool, d: real, k: real): real {
    if held then x + d * k else x
  }

  lemma NudgeStep(e: Vec3, held: bool, dir: Vec3, k: real)
    ensures Nudge(e, held, dir, k) == Vec3(Step(e.x, held, dir.x, k), Step(e.y, held, dir.y, k), Step(e.z, held, dir.z, k))
  {
  }

  lemma NudgeChainNet(x: real, fx: real, rx: real, keys: Keys, k: real)
    ensures NudgeChain(x, fx, rx, keys, k) == x + fx * Net(keys.up, keys.down, k) + rx * Net(keys.left, keys.right, k)
  {
    var f := Net(keys.up, keys.down, k);
    var g := Net(keys.left, keys.right, k);
    assert fx * f == (if keys.up then fx * k else 0.0) + (if keys.down then fx * -k else 0.0);
    assert rx * g == (if keys.right then rx * -k else 0.0) + (if keys.left then rx * k else 0.0);
  }

  lemma NudgesAt(e: Vec3, keys: Keys, front: Vec3, right: Vec3, k: real)
    ensures Nudge(Nudge(Nudge(Nudge(e, keys.up, front, k), keys.down, front, -k), keys.right, right, -k), keys.left, right, k)
         == Vec3(NudgeChain(e.x, front.x, right.x, keys, k), NudgeChain(e.y, front.y, right.y, keys, k),
                 NudgeChain(e.z, front.z, right.z, keys, k))
  {
    var n1 := Nudge(e, keys.up, front, k);
    var n2 := Nudge(n1, keys.down, front, -k);
    var n3 := Nudge(n2, keys.right, right, -k);
    NudgeStep(e, keys.up, front, k);
    NudgeStep(n1, keys.down, front, -k);
    NudgeStep(n2, keys.right, right, -k);
    NudgeStep(n3, keys.left, right, k);
  }

  lemma TwoMovesAt(e: Vec3, f: Vec3, r: Vec3, a: real, b: real)
    ensures Add(Add(e, Mul(f, a)), Mul(r, b)) == Vec3(e.x + f.x * a + r.x * b, e.y + f.y * a + r.y * b, e.z + f.z * a + r.z * b)
  {
    var fa := Mul(f, a);
    var rb := Mul(r, b);
    assert fa == Vec3(f.x * a, f.y * a, f.z * a);
    assert rb == Vec3(r.x * b, r.y * b, r.z * b);
  }

  /** The four key nudges add up to one move along each axis by the net amount. */
  lemma NudgesCombine(e: Vec3, keys: Keys, front: Vec3, right: Vec3, k: real)
    ensures Nudge(Nudge(Nudge(Nudge(e, keys.up, front, k), keys.down, front, -k), keys.right, right, -k), keys.left, right, k)
         == Add(Add(e, Mul(front, Net(keys.up, keys.down, k))), Mul(right, Net(keys.left, keys.right, k)))
  {
    NudgesAt(e, keys, front, right, k);
    NudgeChainNet(e.x, front.x, right.x, keys, k);
    NudgeChainNet(e.y, front.y, right.y, keys, k);
    NudgeChainNet(e.z, front.z, right.z, keys, k);
    TwoMovesAt(e, front, right, Net(keys.up, keys.down, k), Net(keys.left, keys.right, k));
  }

  /** The per-frame keyboard movement: the forward and right axes are those of the
      view at the start of the frame; up and down move along the forward axis, left
      and right along the right axis (left with it, right against it), `moveStep`
      each. */
  function Update(c: Camera, keys: Keys, basis: Basis): (c': Camera)
    ensures var dirs := basis(c.eye, c.yaw, c.pitch);
      c'.eye == Add(Add(c.eye, Mul(dirs.front, Net(keys.up, keys.down, c.moveStep))),
                    Mul(dirs.right, Net(keys.left, keys.right, c.moveStep)))
    ensures c'.yaw == c.yaw && c'.pitch == UpdateRestrictions(c.pitch)
    ensures Pose(c') == Pose(c).(eye := c'.eye, pitch := c'.pitch)
    ensures Fresh(c') && c'.projViewUpdates == c.projViewUpdates + 1
  {
    var dirs := basis(c.eye, c.yaw, c.pitch);
    var k := c.moveStep;
    var eye := Nudge(Nudge(Nudge(Nudge(c.eye, keys.up, dirs.front, k), keys.down, dirs.front, -k),
                           keys.right, dirs.right, -k), keys.left, dirs.right, k);
    NudgesCombine(c.eye, keys, dirs.front, dirs.right, k);
    UpdateProjViews(c.(eye := eye, pitch := UpdateRestrictions(c.pitch)))
  }

  /** Polled state of the mouse buttons. */
  datatype Buttons = Buttons(left: bool, right: bool)

  /** Reaction to one event. A cursor move drives the left-drag handler when the left
      button is held and the right-drag handler when the right one is (both may run,
      with the same displacement), and always records the new cursor position. */
  function HandleEvent(c: Camera, e: Event, buttons: Buttons, basis: Basis): (c': Camera)
    ensures e.CursorPos? ==> c'.lastCursorPos == Vec2(e.x, e.y)
    ensures e.CursorPos? ==>
      var pos := Vec2(e.x, e.y);
      var d := Sub2(pos, c.lastCursorPos);
      && (!buttons.left && !buttons.right ==> c' == c.(lastCursorPos := pos))
      && (buttons.left && !buttons.right ==> c' == LeftDrag(c, d).(lastCursorPos := pos))
      && (!buttons.left && buttons.right ==> c' == RightDrag(c, d, basis).(lastCursorPos := pos))
      && (buttons.left && buttons.right ==> c' == RightDrag(LeftDrag(c, d), d, basis).(lastCursorPos := pos))
    ensures e.CursorPos? ==>
      c'.projViewUpdates == c.projViewUpdates + (if buttons.left then 1 else 0) + (if buttons.right then 1 else 0)
    ensures e.Scroll? ==> c' == HandleScroll(c, e.yoff, basis)
    ensures e.FramebufferSize? ==>
      && c'.projection == Perspective(e.w, e.h, c.fov, c.znear, c.zfar)
      && Pose(c') == Pose(c).(projection := c'.projection)
      && c'.projViewUpdates == c.projViewUpdates + 1
    ensures !e.CursorPos? && !e.Scroll? && !e.FramebufferSize? ==> c' == c
    ensures Fresh(c) ==> Fresh(c')
  {
    match e
    case CursorPos(x, y) =>
      var pos := Vec2(x, y);
      var d := Sub2(pos, c.lastCursorPos);
      var c1 := if buttons.left then LeftDrag(c, d) else c;
      var c2 := if buttons.right then RightDrag(c1, d, basis) else c1;
      c2.(lastCursorPos := pos)
    case Scroll(_, off) => HandleScroll(c, off, basis)
    case FramebufferSize(w, h) =>
      UpdateProjViews(c.(projection := Perspective(w, h, c.fov, c.znear, c.zfar)))
    case _ => c
  }

  // ---------------------------------------------------------------------------
  // Queries: they read the state and the cache.

  function Eye(c: Camera): Vec3 {
    c.eye
  }

  function ClipPlanes(c: Camera): (r: (real, real)) {
    (c.znear, c.zfar)
  }

  /** The cached view-projection; with a fresh cache, that of the current pose. */
  function Transformation(c: Camera): (m: Matrix)
    ensures Fresh(c) ==> m == ProjView(c.projection, c.eye, c.yaw, c.pitch)
  {
    c.projView
  }

  /** The cached inverse view-projection. */
  function InvTransformation(c: Camera): (m: Matrix)
    ensures Fresh(c) ==> m == Inverse(Transformation(c))
  {
    c.invProjView
  }

  // ---------------------------------------------------------------------------
  // Properties over several operations.

  /** Left drags applied in order. */
  function LeftDrags(c: Camera, ds: seq<Vec2>): Camera
    decreases |ds|
  {
    if |ds| == 0 then c else LeftDrags(LeftDrag(c, ds[0]), ds[1..])
  }

  /** After any non-empty sequence of left drags the pitch is within the margin of the
      poles, the cache is fresh, and it was recomputed once per drag. */
  lemma {:induction false} LeftDragsKeepPitch(c: Camera, ds: seq<Vec2>)
    requires |ds| > 0 || PitchInRange(c.pitch)
    ensures PitchInRange(LeftDrags(c, ds).pitch)
    ensures LeftDrags(c, ds).projViewUpdates == c.projViewUpdates + |ds|
    ensures |ds| > 0 ==> Fresh(LeftDrags(c, ds))
    decreases |ds|
  {
    if |ds| > 0 {
      LeftDragsKeepPitch(LeftDrag(c, ds[0]), ds[1..]);
    }
  }

  /** Once the pitch is in range, no event and no per-frame update takes it out. */
  lemma EventsKeepPitch(c: Camera, e: Event, buttons: Buttons, keys: Keys, basis: Basis)
    requires PitchInRange(c.pitch)
    ensures PitchInRange(HandleEvent(c, e, buttons, basis).pitch)
    ensures PitchInRange(Update(c, keys, basis).pitch)
  {
  }

  /** Events applied in order, with the button state polled for each. */
  function HandleEvents(c: Camera, es: seq<Event>, buttons: Buttons, basis: Basis): Camera
    decreases |es|
  {
    if |es| == 0 then c else HandleEvents(HandleEvent(c, es[0], buttons, basis), es[1..], buttons, basis)
  }

  /** Whatever the events, a fresh cache stays fresh: no event path mutates the pose
      without recomputing it. */
  lemma {:induction false} EventsKeepCacheFresh(c: Camera, es: seq<Event>, buttons: Buttons, basis: Basis)
    requires Fresh(c)
    ensures Fresh(HandleEvents(c, es, buttons, basis))
    decreases |es|
  {
    if |es| > 0 {
      EventsKeepCacheFresh(HandleEvent(c, es[0], buttons, basis), es[1..], buttons, basis);
    }
  }

  /** With a fresh cache, the queries report the view-projection of the current eye
      and pose, and its inverse. */
  lemma QueriesAreReadOnly(c: Camera)
    requires Fresh(c)
    ensures Transformation(c) == ProjView(c.projection, Eye(c), c.yaw, c.pitch)
    ensures InvTransformation(c) == Inverse(ProjView(c.projection, Eye(c), c.yaw, c.pitch))
  {
  }
}

=== FILE: framebuffers.dfy ===
/** The render-target switcher: a three-register state machine that remembers which
    framebuffer, colour attachment and depth attachment are bound, and issues a
    binding call only when the requested handle differs from the remembered one. */
module Framebuffers {
  import opened LinAlg
  import opened Trace

  /** The target of every rendering call: the window's own framebuffer, or an
      offscreen colour texture plus depth texture. */
  datatype RenderTarget = Screen | Offscreen(texture: nat, depth: nat)

  /** Handle of the offscreen colour texture; 0 for the screen. */
  function TextureId(t: RenderTarget): (id: nat)
    ensures t.Screen? ==> id == 0
    ensures t.Offscreen? ==> id == t.texture
  {
    match t
    case Screen => 0
    case Offscreen(texture, _) => texture
  }

  /** Handle of the offscreen depth texture; 0 for the screen. */
  function DepthId(t: RenderTarget): (id: nat)
    ensures t.Screen? ==> id == 0
    ensures t.Offscreen? ==> id == t.depth
  {
    match t
    case Screen => 0
    case Offscreen(_, depth) => depth
  }

  /** Reallocates the storage of one texture at a new size, leaving it unbound. */
  function Realloc(texture: nat, format: TexFormat, w: real, h: real): seq<Call> {
    [BindTexture(texture), TexImage2D(format, Trunc(w), Trunc(h)), BindTexture(0)]
  }

  /** A segment that neither binds a framebuffer nor changes an attachment. */
  predicate FramebufferNeutral(calls: seq<Call>) {
    forall k :: 0 <= k < |calls| ==>
      !calls[k].BindFramebuffer? && !calls[k].AttachColor? && !calls[k].AttachDepth?
  }

  lemma NeutralAppend(a: seq<Call>, b: seq<Call>)
    requires FramebufferNeutral(a) && FramebufferNeutral(b)
    ensures FramebufferNeutral(a + b)
  {
    forall k | 0 <= k < |a + b|
      ensures !(a + b)[k].BindFramebuffer? && !(a + b)[k].AttachColor? && !(a + b)[k].AttachDepth?
    {
      if k < |a| { assert (a + b)[k] == a[k]; } else { assert (a + b)[k] == b[k - |a|]; }
    }
  }

  /** Resizing the screen sets the viewport; resizing an offscreen target reallocates
      both textures in place. The target value itself is never replaced: its handles
      survive the resize. */
  function Resize(t: RenderTarget, w: real, h: real): (calls: seq<Call>)
    ensures t.Screen? ==> calls == [Viewport(Trunc(w), Trunc(h))]
    ensures t.Offscreen? ==>
      calls == Realloc(t.texture, Rgba, w, h) + Realloc(t.depth, DepthComponent, w, h)
    ensures forall k :: 0 <= k < |calls| ==> !calls[k].GenTexture?
    ensures forall k :: 0 <= k < |calls| && calls[k].BindTexture? ==>
      calls[k].texture == 0 || calls[k].texture == TextureId(t) || calls[k].texture == DepthId(t)
    ensures FramebufferNeutral(calls)
  {
    match t
    case Screen => [Viewport(Trunc(w), Trunc(h))]
    case Offscreen(texture, depth) =>
      Realloc(texture, Rgba, w, h) + Realloc(depth, DepthComponent, w, h)
  }

  /** Creates the colour and depth textures of an offscreen target. The handles come
      from the graphics driver and are parameters here. */
  function NewRenderTarget(texture: nat, depth: nat, width: nat, height: nat): (r: (RenderTarget, seq<Call>))
    ensures r.0 == Offscreen(texture, depth)
    ensures TextureId(r.0) == texture && DepthId(r.0) == depth
    ensures GenTexture(texture) in r.1 && GenTexture(depth) in r.1
    ensures TexImage2D(Rgba, width, height) in r.1 && TexImage2D(DepthComponent, width, height) in r.1
    ensures r.1[|r.1| - 1] == BindTexture(0)
    ensures FramebufferNeutral(r.1)
  {
    (Offscreen(texture, depth),
     [ActiveTexture(0), GenTexture(texture), BindTexture(texture), TexParameters,
      TexImage2D(Rgba, width, height), BindTexture(0),
      ActiveTexture(1), GenTexture(depth), BindTexture(depth), TexParameters,
      TexImage2D(DepthComponent, width, height), BindTexture(0)])
  }

  /** The registers of the manager, and the handle of its own offscreen framebuffer. */
  datatype Manager = Manager(currFbo: nat, currColor: nat, currDepth: nat, fbo: nat)

  /** Creates the manager: generates its framebuffer object (handle `fbo`, chosen by
      the driver) and makes sure the screen is bound. */
  function New(fbo: nat): (r: (Manager, seq<Call>))
    ensures r.0.currFbo == 0 && r.0.currColor == 0 && r.0.currDepth == 0
    ensures r.0.fbo == fbo
    ensures Synced(r.0, Screen)
    ensures r.1 == [GenFramebuffers(fbo), BindFramebuffer(0)]
  {
    (Manager(0, 0, 0, fbo), [GenFramebuffers(fbo), BindFramebuffer(0)])
  }

  /** The framebuffer a target lives in. */
  function FboOf(m: Manager, t: RenderTarget): nat {
    if t.Screen? then 0 else m.fbo
  }

  /** The registers already describe target `t`. */
  predicate Synced(m: Manager, t: RenderTarget) {
    m.currFbo == FboOf(m, t) && m.currColor == TextureId(t) && m.currDepth == DepthId(t)
  }

  /** Binds framebuffer `f` unless it is the one remembered as bound. */
  function DoSelect(m: Manager, f: nat): (r: (Manager, seq<Call>))
    ensures r.0.currFbo == f
    ensures r.0.currColor == m.currColor && r.0.currDepth == m.currDepth && r.0.fbo == m.fbo
    ensures BindFramebuffer(f) in r.1 <==> m.currFbo != f
    ensures forall k :: 0 <= k < |r.1| ==> r.1[k] == BindFramebuffer(f)
    ensures |r.1| <= 1
  {
    if m.currFbo != f then (m.(currFbo := f), [BindFramebuffer(f)]) else (m, [])
  }

  function AttachColorIfNeeded(m: Manager, texture: nat): (Manager, seq<Call>) {
    if m.currColor != texture then (m.(currColor := texture), [AttachColor(texture)]) else (m, [])
  }

  function AttachDepthIfNeeded(m: Manager, depth: nat): (Manager, seq<Call>) {
    if m.currDepth != depth then (m.(currDepth := depth), [AttachDepth(depth)]) else (m, [])
  }

  /** The order of the selection steps: bind the framebuffer, then attach colour, then depth. */
  function SelectionStep(c: Call): nat {
    match c
    case BindFramebuffer(_) => 0
    case AttachColor(_) => 1
    case AttachDepth(_) => 2
    case _ => 3
  }

  /** Makes `t` the current render target. Selecting the screen forgets both
      attachments, so a later offscreen selection re-attaches them. */
  function Select(m: Manager, t: RenderTarget): (r: (Manager, seq<Call>))
    ensures Synced(r.0, t) && r.0.fbo == m.fbo
    ensures BindFramebuffer(FboOf(m, t)) in r.1 <==> m.currFbo != FboOf(m, t)
    ensures AttachColor(TextureId(t)) in r.1 <==> t.Offscreen? && m.currColor != t.texture
    ensures AttachDepth(DepthId(t)) in r.1 <==> t.Offscreen? && m.currDepth != t.depth
    ensures forall k :: 0 <= k < |r.1| ==>
      r.1[k] in {BindFramebuffer(FboOf(m, t)), AttachColor(TextureId(t)), AttachDepth(DepthId(t))}
    ensures |r.1| == (if m.currFbo != FboOf(m, t) then 1 else 0)
                   + (if t.Offscreen? && m.currColor != t.texture then 1 else 0)
                   + (if t.Offscreen? && m.currDepth != t.depth then 1 else 0)
    ensures forall i, j :: 0 <= i < j < |r.1| ==> SelectionStep(r.1[i]) < SelectionStep(r.1[j])
    ensures |r.1| > 0 && r.1[0] != BindFramebuffer(FboOf(m, t)) ==> m.currFbo == FboOf(m, t)
    ensures r.1 == [] <==>
      m.currFbo == FboOf(m, t) && (t.Offscreen? ==> m.currColor == t.texture && m.currDepth == t.depth)
  {
    match t
    case Screen =>
      var (m1, c1) := DoSelect(m, 0);
      (m1.(currColor := 0, currDepth := 0), c1)
    case Offscreen(texture, depth) =>
      var (m1, c1) := DoSelect(m, m.fbo);
      var (m2, c2) := AttachColorIfNeeded(m1, texture);
      var (m3, c3) := AttachDepthIfNeeded(m2, depth);
      (m3, c1 + c2 + c3)
  }

  /** Selecting a target twice: the second selection changes nothing and issues no call. */
  lemma SelectIdempotent(m: Manager, t: RenderTarget)
    ensures Select(Select(m, t).0, t) == (Select(m, t).0, [])
  {
  }

  /** After the screen has been selected, selecting an offscreen target rebinds the
      manager's framebuffer (if that handle is not 0) and re-attaches each attachment
      whose handle is not 0. */
  lemma ScreenThenOffscreen(m: Manager, texture: nat, depth: nat)
    ensures var m1 := Select(m, Screen).0;
      Select(m1, Offscreen(texture, depth)).1 ==
        (if m.fbo != 0 then [BindFramebuffer(m.fbo)] else [])
        + (if texture != 0 then [AttachColor(texture)] else [])
        + (if depth != 0 then [AttachDepth(depth)] else [])
  {
  }

  // ---------------------------------------------------------------------------
  // The effect of the calls on the graphics driver, as an independent reference.

  /** What the driver knows: the bound framebuffer and, per framebuffer, the textures
      attached as colour and depth. */
  datatype GlState = GlState(bound: nat, color: map<nat, nat>, depth: map<nat, nat>)

  function Step(gl: GlState, c: Call): GlState {
    match c
    case BindFramebuffer(f) => gl.(bound := f)
    case AttachColor(tex) => gl.(color := gl.color[gl.bound := tex])
    case AttachDepth(tex) => gl.(depth := gl.depth[gl.bound := tex])
    case _ => gl
  }

  function Run(gl: GlState, calls: seq<Call>): GlState
    decreases |calls|
  {
    if |calls| == 0 then gl else Run(Step(gl, calls[0]), calls[1..])
  }

  lemma RunOne(gl: GlState, c: Call)
    ensures Run(gl, [c]) == Step(gl, c)
  {
    assert [c][1..] == [];
  }

  lemma {:induction false} RunAppend(gl: GlState, a: seq<Call>, b: seq<Call>)
    ensures Run(gl, a + b) == Run(Run(gl, a), b)
    decreases |a|
  {
    if |a| == 0 {
      assert a + b == b;
    } else {
      assert (a + b)[0] == a[0];
      assert (a + b)[1..] == a[1..] + b;
      RunAppend(Step(gl, a[0]), a[1..], b);
    }
  }

  lemma {:induction false} NeutralRun(gl: GlState, calls: seq<Call>)
    requires FramebufferNeutral(calls)
    ensures Run(gl, calls) == gl
    decreases |calls|
  {
    if |calls| != 0 {
      assert Step(gl, calls[0]) == gl;
      NeutralRun(gl, calls[1..]);
    }
  }

  /** The registers are a sound cache of the driver state: the remembered framebuffer
      is the bound one, and a non-zero remembered attachment is the one actually
      attached to the manager's framebuffer. */
  predicate Mirrors(m: Manager, gl: GlState) {
    && gl.bound == m.currFbo
    && (m.currColor != 0 ==> m.fbo in gl.color && gl.color[m.fbo] == m.currColor)
    && (m.currDepth != 0 ==> m.fbo in gl.depth && gl.depth[m.fbo] == m.currDepth)
  }

  /** Creating the manager establishes the cache, whatever the driver held before. */
  lemma NewMirrors(fbo: nat, gl: GlState)
    ensures Mirrors(New(fbo).0, Run(gl, New(fbo).1))
  {
    var calls := New(fbo).1;
    assert calls == [GenFramebuffers(fbo)] + [BindFramebuffer(0)];
    RunAppend(gl, [GenFramebuffers(fbo)], [BindFramebuffer(0)]);
    RunOne(gl, GenFramebuffers(fbo));
    RunOne(gl, BindFramebuffer(0));
  }

  lemma {:induction false} DoSelectRun(m: Manager, f: nat, gl: GlState)
    requires Mirrors(m, gl)
    ensures Run(gl, DoSelect(m, f).1) == gl.(bound := f)
  {
    if m.currFbo != f {
      RunOne(gl, BindFramebuffer(f));
    }
  }

  /** Selecting through the manager keeps the cache sound, leaves the target's
      framebuffer bound, and leaves each non-zero handle of an offscreen target
      attached to it. Redundant calls are suppressed without losing any effect. */
  lemma {:induction false} SelectSound(m: Manager, t: RenderTarget, gl: GlState)
    requires Mirrors(m, gl)
    ensures var (m', calls) := Select(m, t);
      var gl' := Run(gl, calls);
      && Mirrors(m', gl')
      && gl'.bound == FboOf(m, t)
      && (t.Offscreen? && t.texture != 0 ==> m.fbo in gl'.color && gl'.color[m.fbo] == t.texture)
      && (t.Offscreen? && t.depth != 0 ==> m.fbo in gl'.depth && gl'.depth[m.fbo] == t.depth)
  {
    match t
    case Screen =>
      DoSelectRun(m, 0, gl);
    case Offscreen(texture, depth) =>
      var (m1, c1) := DoSelect(m, m.fbo);
      DoSelectRun(m, m.fbo, gl);
      var gl1 := Run(gl, c1);
      assert Mirrors(m1, gl1);
      var (m2, c2) := AttachColorIfNeeded(m1, texture);
      var gl2 := Run(gl1, c2);
      if m1.currColor != texture {
        RunOne(gl1, AttachColor(texture));
      }
      assert Mirrors(m2, gl2);
      var (m3, c3) := AttachDepthIfNeeded(m2, depth);
      var gl3 := Run(gl2, c3);
      if m2.currDepth != depth {
        RunOne(gl2, AttachDepth(depth));
      }
      assert Mirrors(m3, gl3);
      RunAppend(gl, c1, c2);
      RunAppend(gl, c1 + c2, c3);
  }

  /** Resizing a target leaves the driver's framebuffer state, and so the cache, intact. */
  lemma ResizeKeepsMirror(m: Manager, gl: GlState, t: RenderTarget, w: real, h: real)
    requires Mirrors(m, gl)
    ensures Run(gl, Resize(t, w, h)) == gl
    ensures Mirrors(m, Run(gl, Resize(t, w, h)))
  {
    NeutralRun(gl, Resize(t, w, h));
  }

  /** Driver state `gl` renders into target `t` through framebuffer `fbo`: that framebuffer
      is bound and, for an offscreen target, carries each of its non-zero textures. */
  predicate RendersInto(gl: GlState, fbo: nat, t: RenderTarget) {
    && gl.bound == fbo
    && (t.Offscreen? && t.texture != 0 ==> fbo in gl.color && gl.color[fbo] == t.texture)
    && (t.Offscreen? && t.depth != 0 ==> fbo in gl.depth && gl.depth[fbo] == t.depth)
  }

  /** Every draw call in `calls`, run from driver state `gl`, is issued while framebuffer
      `fbo` is bound with the textures of target `t` attached. */
  predicate DrawsInto(gl: GlState, calls: seq<Call>, fbo: nat, t: RenderTarget)
    decreases |calls|
  {
    |calls| == 0 ||
      ((calls[0].DrawElements? ==> RendersInto(gl, fbo, t)) && DrawsInto(Step(gl, calls[0]), calls[1..], fbo, t))
  }

  lemma {:induction false} DrawsIntoAppend(gl: GlState, a: seq<Call>, b: seq<Call>, fbo: nat, t: RenderTarget)
    requires DrawsInto(gl, a, fbo, t) && DrawsInto(Run(gl, a), b, fbo, t)
    ensures DrawsInto(gl, a + b, fbo, t)
    decreases |a|
  {
    if |a| == 0 {
      assert a + b == b;
    } else {
      assert (a + b)[0] == a[0];
      assert (a + b)[1..] == a[1..] + b;
      DrawsIntoAppend(Step(gl, a[0]), a[1..], b, fbo, t);
    }
  }

  /** Calls that leave the framebuffer state alone draw into whatever is bound and attached. */
  lemma {:induction false} NeutralDrawsInto(gl: GlState, calls: seq<Call>, fbo: nat, t: RenderTarget)
    requires FramebufferNeutral(calls) && RendersInto(gl, fbo, t)
    ensures DrawsInto(gl, calls, fbo, t)
    decreases |calls|
  {
    if |calls| != 0 {
      assert Step(gl, calls[0]) == gl;
      NeutralDrawsInto(gl, calls[1..], fbo, t);
    }
  }

  /** Calls without draws satisfy the constraint for any framebuffer and target. */
  lemma {:induction false} NoDrawsInto(gl: GlState, calls: seq<Call>, fbo: nat, t: RenderTarget)
    requires NoDraws(calls)
    ensures DrawsInto(gl, calls, fbo, t)
    decreases |calls|
  {
    if |calls| != 0 {
      NoDrawsInto(Step(gl, calls[0]), calls[1..], fbo, t);
    }
  }
}

=== FILE: linalg.dfy ===
/** Stand-ins for the handful of vector and matrix values the renderer passes around.
    Floating point is modelled by `real`; matrix and trigonometric results that the
    model never inspects are kept as uninterpreted terms. */
module LinAlg {

  datatype Vec2 = Vec2(x: real, y: real)

  datatype Vec3 = Vec3(x: real, y: real, z: real)

  function Add(a: Vec3, b: Vec3): Vec3 {
    Vec3(a.x + b.x, a.y + b.y, a.z + b.z)
  }

  function Mul(a: Vec3, k: real): Vec3 {
    Vec3(a.x * k, a.y * k, a.z * k)
  }

  function Sub2(a: Vec2, b: Vec2): Vec2 {
    Vec2(a.x - b.x, a.y - b.y)
  }

  /** A diagonal 3x3 scaling matrix; the off-diagonal entries are always zero. */
  datatype Scale = Diagonal(sx: real, sy: real, sz: real)

  /** One edit of a rigid transform. Rotations and translations are axis vectors. */
  datatype TransformEdit =
    | AppendTransformation(t: Iso)
    | PrependTransformation(t: Iso)
    | AppendRotation(r: Vec3)
    | PrependRotation(r: Vec3)
    | SetRotation(r: Vec3)
    | AppendTranslation(v: Vec3)
    | PrependTranslation(v: Vec3)
    | SetTranslation(v: Vec3)
    | LookAt(eye: Vec3, at: Vec3, up: Vec3)
    | LookAtZ(eye: Vec3, at: Vec3, up: Vec3)

  /** A rigid transform as a term: the identity, or an edit applied to a transform.
      The numeric effect of an edit is not modelled. */
  datatype Iso = Identity | Edited(base: Iso, edit: TransformEdit)

  /** Three vertex indices of a mesh face (`Vec3<GLuint>`). */
  datatype Triangle = Triangle(a: nat, b: nat, c: nat)

  /** π as the 32-bit float returned by `Real::pi()` for `f32`. */
  const Pi: real := 3.1415927410125732

  /** A float-to-integer cast (`x as i32`): truncation toward zero. */
  function Trunc(x: real): (r: int)
    ensures x >= 0.0 ==> 0 <= r && r as real <= x < r as real + 1.0
    ensures x < 0.0 ==> r <= 0 && r as real - 1.0 < x <= r as real
  {
    if x >= 0.0 then x.Floor else -((-x).Floor)
  }
}

=== FILE: objects.dfy ===
/** Scene objects. An object is a pair of shared handles: one to its own data block
    (scale, transform, colour, texture, visibility) and one to a mesh that other
    objects may share. Shared allocations are modelled as an arena (`Store`) addressed
    by handles; copying an object copies the handles, so every copy observes the same
    data block, and equality compares the data handle only. */
module Objects {
  import opened Common
  import opened LinAlg
  import opened Trace
  import opened Framebuffers

  /** The per-object data block. */
  datatype ObjectData = ObjectData(texture: nat, scale: Scale, transform: Iso, color: Vec3, visible: bool)

  /** The part of a mesh the renderer looks at: its faces and buffer sizes. */
  datatype Mesh = Mesh(vertexCount: nat, faces: seq<Triangle>, normalCount: nat, texCoordCount: nat)

  /** Number of indices one draw of the mesh consumes: three per face. */
  function NumPts(m: Mesh): nat {
    3 * |m.faces|
  }

  /** An object: the handle of its data block and the handle of its mesh. */
  datatype Object = Object(data: nat, mesh: nat)

  /** Every shared allocation; `nextData` and `nextMesh` are the next fresh handles. */
  datatype Store = Store(data: map<nat, ObjectData>, meshes: map<nat, Mesh>, nextData: nat, nextMesh: nat)

  predicate Valid(s: Store) {
    && (forall k :: k in s.data ==> k < s.nextData)
    && (forall k :: k in s.meshes ==> k < s.nextMesh)
  }

  predicate Live(s: Store, o: Object) {
    o.data in s.data && o.mesh in s.meshes
  }

  /** `s'` differs from `s` at most in the data block `id`, which now holds `d`. */
  predicate OnlyBlockChanged(s: Store, s': Store, id: nat, d: ObjectData) {
    s'.data == s.data[id := d] && s'.meshes == s.meshes
      && s'.nextData == s.nextData && s'.nextMesh == s.nextMesh
  }

  /** `s'` keeps every allocation of `s` (and possibly adds some). */
  predicate Extends(s: Store, s': Store) {
    && (forall k :: k in s.data ==> k in s'.data)
    && (forall k :: k in s.meshes ==> k in s'.meshes)
  }

  /** Allocates a shared mesh. */
  function AddMesh(s: Store, m: Mesh): (r: (Store, nat))
    requires Valid(s)
    ensures Valid(r.0)
    ensures r.1 !in s.meshes && r.1 in r.0.meshes && r.0.meshes[r.1] == m
    ensures forall k :: k in s.meshes ==> k in r.0.meshes && r.0.meshes[k] == s.meshes[k]
    ensures r.0.data == s.data && r.0.nextData == s.nextData
    ensures Extends(s, r.0)
  {
    (s.(meshes := s.meshes[s.nextMesh := m], nextMesh := s.nextMesh + 1), s.nextMesh)
  }

  /** Creates an object over an existing mesh: visible, at the identity transform,
      with colour (r, g, b) and the diagonal scale (sx, sy, sz). Its data block is a
      fresh allocation. */
  function NewObject(s: Store, mesh: nat, r: real, g: real, b: real, texture: nat,
                     sx: real, sy: real, sz: real): (res: (Store, Object))
    requires Valid(s) && mesh in s.meshes
    ensures var (s', o) := res;
      && Valid(s') && Live(s', o)
      && o.mesh == mesh
      && o.data !in s.data
      && s'.data == s.data[o.data := ObjectData(texture, Diagonal(sx, sy, sz), Identity, Vec3(r, g, b), true)]
      && s'.meshes == s.meshes
      && Extends(s, s')
  {
    var id := s.nextData;
    var d := ObjectData(texture, Diagonal(sx, sy, sz), Identity, Vec3(r, g, b), true);
    (s.(data := s.data[id := d], nextData := id + 1), Object(id, mesh))
  }

  /** Object equality: the same data block (not equal field values). */
  predicate Equal(a: Object, b: Object) {
    a.data == b.data
  }

  /** A copy of an object shares both handles. */
  function Clone(o: Object): (c: Object)
    ensures Equal(c, o) && c.mesh == o.mesh
  {
    o
  }

  /** Two objects built one after the other are different objects even when every
      field they were given is equal. */
  lemma ConstructedObjectsDistinct(s: Store, mesh: nat, r: real, g: real, b: real, texture: nat,
                                   sx: real, sy: real, sz: real)
    requires Valid(s) && mesh in s.meshes
    ensures var (s1, o1) := NewObject(s, mesh, r, g, b, texture, sx, sy, sz);
      var (s2, o2) := NewObject(s1, mesh, r, g, b, texture, sx, sy, sz);
      !Equal(o1, o2) && s2.data[o1.data] == s2.data[o2.data]
  {
  }

  function Visible(s: Store, o: Object): bool
    requires o.data in s.data
  {
    s.data[o.data].visible
  }

  /** The uniforms and bindings that precede an object's draw. */
  function UploadSetup(d: ObjectData, mesh: nat): (calls: seq<Call>)
    ensures |calls| > 0 && calls[0] == UniformTransform(d.transform)
    ensures UniformScale(d.scale) in calls && UniformColor(d.color) in calls && BindTexture(d.texture) in calls
    ensures BindMesh(mesh) in calls
    ensures NoDraws(calls) && FramebufferNeutral(calls)
  {
    [UniformTransform(d.transform), UniformNormalTransform(d.transform),
     UniformScale(d.scale), UniformColor(d.color), BindMesh(mesh),
     ActiveTexture(0), BindTexture(d.texture)]
  }

  /** Draws the object: nothing at all when it is invisible; otherwise its uniforms,
      its mesh and texture bindings, and exactly one indexed draw of the whole mesh. */
  function Upload(s: Store, o: Object): (calls: seq<Call>)
    requires Live(s, o)
    ensures !Visible(s, o) ==> calls == []
    ensures Visible(s, o) ==> DrawCounts(calls) == [NumPts(s.meshes[o.mesh])]
    ensures Visible(s, o) ==>
      && |calls| >= 3
      && calls[0] == UniformTransform(s.data[o.data].transform)
      && UniformScale(s.data[o.data].scale) in calls[..|calls| - 2]
      && UniformColor(s.data[o.data].color) in calls[..|calls| - 2]
      && BindMesh(o.mesh) in calls[..|calls| - 2]
      && BindTexture(s.data[o.data].texture) in calls[..|calls| - 2]
      && calls[|calls| - 2] == DrawElements(NumPts(s.meshes[o.mesh]))
      && calls[|calls| - 1] == UnbindMesh(o.mesh)
    ensures FramebufferNeutral(calls)
  {
    var d := s.data[o.data];
    if !d.visible then []
    else
      var setup := UploadSetup(d, o.mesh);
      var draw := [DrawElements(NumPts(s.meshes[o.mesh])), UnbindMesh(o.mesh)];
      assert DrawCounts(draw) == [NumPts(s.meshes[o.mesh])] by {
        assert draw[1..][1..] == [];
      }
      NoDrawsHaveNoCounts(setup);
      DrawCountsAppend(setup, draw);
      NeutralAppend(setup, draw);
      assert (setup + draw)[..|setup + draw| - 2] == setup;
      setup + draw
  }

  function SetVisible(s: Store, o: Object, visible: bool): (s': Store)
    requires Live(s, o)
    ensures Live(s', o) && Visible(s', o) == visible
    ensures OnlyBlockChanged(s, s', o.data, s.data[o.data].(visible := visible))
  {
    s.(data := s.data[o.data := s.data[o.data].(visible := visible)])
  }

  function SetScale(s: Store, o: Object, sx: real, sy: real, sz: real): (s': Store)
    requires Live(s, o)
    ensures OnlyBlockChanged(s, s', o.data, s.data[o.data].(scale := Diagonal(sx, sy, sz)))
  {
    s.(data := s.data[o.data := s.data[o.data].(scale := Diagonal(sx, sy, sz))])
  }

  function SetColor(s: Store, o: Object, r: real, g: real, b: real): (s': Store)
    requires Live(s, o)
    ensures OnlyBlockChanged(s, s', o.data, s.data[o.data].(color := Vec3(r, g, b)))
  {
    s.(data := s.data[o.data := s.data[o.data].(color := Vec3(r, g, b))])
  }

  /** Sets the texture to the handle the texture registry resolved for a path. */
  function SetTexture(s: Store, o: Object, texture: nat): (s': Store)
    requires Live(s, o)
    ensures OnlyBlockChanged(s, s', o.data, s.data[o.data].(texture := texture))
  {
    s.(data := s.data[o.data := s.data[o.data].(texture := texture)])
  }

  /** Replaces the transform. */
  function SetTransformation(s: Store, o: Object, t: Iso): (s': Store)
    requires Live(s, o)
    ensures o.data in s'.data && s'.data[o.data].transform == t
    ensures OnlyBlockChanged(s, s', o.data, s.data[o.data].(transform := t))
  {
    s.(data := s.data[o.data := s.data[o.data].(transform := t)])
  }

  /** Applies an in-place transform edit (append/prepend/set of a rotation or
      translation, look-at); only the transform of the data block changes. */
  function EditTransform(s: Store, o: Object, e: TransformEdit): (s': Store)
    requires Live(s, o)
    ensures OnlyBlockChanged(s, s', o.data, s.data[o.data].(transform := Edited(s.data[o.data].transform, e)))
  {
    var d := s.data[o.data];
    s.(data := s.data[o.data := d.(transform := Edited(d.transform, e))])
  }

  /** Hands the mesh to `edit`, which may change it and reports whether the geometry
      must be sent to the GPU again; the upload happens only in that case. */
  function ModifyMesh(s: Store, o: Object, edit: Mesh -> (Mesh, bool)): (r: (Store, seq<Call>))
    requires Live(s, o)
    ensures r.0.meshes == s.meshes[o.mesh := edit(s.meshes[o.mesh]).0]
    ensures r.0.data == s.data && r.0.nextData == s.nextData && r.0.nextMesh == s.nextMesh
    ensures UploadMesh(o.mesh) in r.1 <==> edit(s.meshes[o.mesh]).1
    ensures |r.1| <= 1
  {
    var (m', reupload) := edit(s.meshes[o.mesh]);
    (s.(meshes := s.meshes[o.mesh := m']), if reupload then [UploadMesh(o.mesh)] else [])
  }

  /** The copying transform variants, which an object refuses. */
  datatype CopyKind =
    | AppendTransformationCpy | PrependTransformationCpy
    | AppendRotationCpy | PrependRotationCpy
    | AppendTranslationCpy | PrependTranslationCpy

  function TransformCopy(kind: CopyKind, o: Object, e: TransformEdit): (r: Result<Object>)
    ensures r == Err(CannotClone)
  {
    Err(CannotClone)
  }

  // ---------------------------------------------------------------------------
  // Properties relating several operations.

  /** A change made through one object is seen through every object equal to it, and
      by no other object. */
  lemma {:induction false} VisibilityIsShared(s: Store, o: Object, other: Object, visible: bool)
    requires Live(s, o) && Live(s, other)
    ensures Equal(other, o) ==> Visible(SetVisible(s, o, visible), other) == visible
    ensures !Equal(other, o) ==> Visible(SetVisible(s, o, visible), other) == Visible(s, other)
  {
  }

  /** Hiding an object removes its draw; showing it again restores exactly one. */
  lemma ToggleVisibilityDraws(s: Store, o: Object)
    requires Live(s, o)
    ensures Upload(SetVisible(s, o, false), o) == []
    ensures DrawCounts(Upload(SetVisible(SetVisible(s, o, false), o, true), o)) == [NumPts(s.meshes[o.mesh])]
  {
  }

  /** Setters of distinct fields do not interfere: their order does not matter. */
  lemma ScaleAndColorCommute(s: Store, o: Object, sx: real, sy: real, sz: real, r: real, g: real, b: real)
    requires Live(s, o)
    ensures SetColor(SetScale(s, o, sx, sy, sz), o, r, g, b) == SetScale(SetColor(s, o, r, g, b), o, sx, sy, sz)
  {
  }

  /** What a setter stores is what the object's next upload sends: the new transform
      first, and the new scale, colour and texture among the uniforms and bindings. */
  lemma SettersReachUpload(s: Store, o: Object, e: TransformEdit, sx: real, sy: real, sz: real,
                           r: real, g: real, b: real, texture: nat)
    requires Live(s, o) && Visible(s, o)
    ensures Upload(EditTransform(s, o, e), o)[0] == UniformTransform(Edited(s.data[o.data].transform, e))
    ensures UniformScale(Diagonal(sx, sy, sz)) in Upload(SetScale(s, o, sx, sy, sz), o)
    ensures UniformColor(Vec3(r, g, b)) in Upload(SetColor(s, o, r, g, b), o)
    ensures BindTexture(texture) in Upload(SetTexture(s, o, texture), o)
  {
    assert Live(EditTransform(s, o, e), o) && Visible(EditTransform(s, o, e), o);
    assert Live(SetScale(s, o, sx, sy, sz), o) && Visible(SetScale(s, o, sx, sy, sz), o);
    assert Live(SetColor(s, o, r, g, b), o) && Visible(SetColor(s, o, r, g, b), o);
    assert Live(SetTexture(s, o, texture), o) && Visible(SetTexture(s, o, texture), o);
  }

  /** Every object over the same mesh sees a mesh modification made through one of them. */
  lemma MeshIsShared(s: Store, o: Object, other: Object, edit: Mesh -> (Mesh, bool))
    requires Live(s, o) && Live(s, other) && other.mesh == o.mesh
    ensures ModifyMesh(s, o, edit).0.meshes[other.mesh] == edit(s.meshes[o.mesh]).0
  {
  }
}

=== FILE: quad.dfy ===
/** The subdivided quad: a (wsubdivs + 1) x (hsubdivs + 1) grid of vertices stored row
    by row, and two triangles per grid cell. Vertex positions and texture coordinates
    are functions of the grid point and are represented by the grid point itself. */
module Quad {
  import opened Common
  import opened LinAlg
  import opened Objects

  /** Vertex indices are 32-bit unsigned integers and wrap modulo 2^32. */
  const U32: nat := 0x1_0000_0000

  function Wrap32(x: nat): nat {
    x % U32
  }

  /** The grid point of a vertex: its row (along the height) and column. */
  datatype GridPoint = GridPoint(row: nat, col: nat)

  /** Vertices of row `i`: columns 0 to `ws` inclusive. */
  function GridRow(i: nat, ws: nat): (r: seq<GridPoint>)
    ensures |r| == ws + 1
  {
    seq(ws + 1, j requires 0 <= j < ws + 1 => GridPoint(i, j))
  }

  /** Vertices of rows 0 to `rows - 1`, row by row. */
  function Grid(ws: nat, rows: nat): seq<GridPoint> {
    if rows == 0 then [] else Grid(ws, rows - 1) + GridRow(rows - 1, ws)
  }

  /** Index of grid point (i, j) in a grid whose rows hold `stride` vertices. */
  function Corner(i: nat, j: nat, stride: nat): nat {
    i * stride + j
  }

  /** The lower-left triangle of cell (i, j). */
  function DlTriangle(i: nat, j: nat, stride: nat): Triangle {
    Triangle(Wrap32(Corner(i + 1, j, stride)), Wrap32(Corner(i, j, stride)), Wrap32(Corner(i + 1, j + 1, stride)))
  }

  /** The upper-right triangle of cell (i, j). */
  function UrTriangle(i: nat, j: nat, stride: nat): Triangle {
    Triangle(Wrap32(Corner(i, j, stride)), Wrap32(Corner(i, j + 1, stride)), Wrap32(Corner(i + 1, j + 1, stride)))
  }

  /** Triangles of the first `n` cells of row `i`. */
  function RowTriangles(i: nat, ws: nat, n: nat): (r: seq<Triangle>)
    ensures |r| == 2 * n
  {
    if n == 0 then [] else RowTriangles(i, ws, n - 1) + [DlTriangle(i, n - 1, ws + 1), UrTriangle(i, n - 1, ws + 1)]
  }

  /** Triangles of the cells of rows 0 to `rows - 1`, row by row. */
  function GridTriangles(ws: nat, rows: nat): seq<Triangle> {
    if rows == 0 then [] else GridTriangles(ws, rows - 1) + RowTriangles(rows - 1, ws, ws)
  }

  /** The mesh of a quad with the given subdivision counts; both must be non-zero. */
  function QuadMesh(ws: nat, hs: nat): (r: Result<Mesh>)
    ensures r.Err? <==> ws == 0 || hs == 0
    ensures r.Err? ==> r.error == ZeroSubdivisions
    ensures r.Ok? ==>
      && r.value.vertexCount == (hs + 1) * (ws + 1)
      && r.value.normalCount == (hs + 1) * (ws + 1)
      && r.value.texCoordCount == (hs + 1) * (ws + 1)
      && |r.value.faces| == 2 * (hs * ws)
      && NumPts(r.value) == 6 * (hs * ws)
  {
    if ws == 0 || hs == 0 then Err(ZeroSubdivisions)
    else
      var n := (hs + 1) * (ws + 1);
      var faces := GridTriangles(ws, hs);
      QuadCounts(ws, hs);
      Ok(Mesh(|Grid(ws, hs + 1)|, faces, n, |Grid(ws, hs + 1)|))
  }

  /** The grid has (hs + 1) * (ws + 1) vertices and two triangles per cell. */
  lemma QuadCounts(ws: nat, hs: nat)
    ensures |Grid(ws, hs + 1)| == (hs + 1) * (ws + 1)
    ensures |GridTriangles(ws, hs)| == 2 * (hs * ws)
  {
    GridLength(ws, hs + 1);
    TrianglesLength(ws, hs);
  }

  // ---------------------------------------------------------------------------
  // The vertex, normal and triangle loops of add_quad, proved to build the reference sequences.

  method BuildVertices(ws: nat, hs: nat) returns (vs: seq<GridPoint>)
    ensures vs == Grid(ws, hs + 1)
  {
    vs := [];
    var i := 0;
    while i < hs + 1
      invariant 0 <= i <= hs + 1
      invariant vs == Grid(ws, i)
    {
      var j := 0;
      while j < ws + 1
        invariant 0 <= j <= ws + 1
        invariant vs == Grid(ws, i) + GridRow(i, ws)[..j]
      {
        assert GridRow(i, ws)[..j + 1] == GridRow(i, ws)[..j] + [GridPoint(i, j)];
        vs := vs + [GridPoint(i, j)];
        j := j + 1;
      }
      assert GridRow(i, ws)[..ws + 1] == GridRow(i, ws);
      i := i + 1;
    }
  }

  method BuildNormals(n: nat) returns (ns: seq<Vec3>)
    ensures |ns| == n
    ensures forall k :: 0 <= k < n ==> ns[k] == Vec3(1.0, 0.0, 0.0)
  {
    ns := [];
    while |ns| < n
      invariant |ns| <= n
      invariant forall k :: 0 <= k < |ns| ==> ns[k] == Vec3(1.0, 0.0, 0.0)
    {
      ns := ns + [Vec3(1.0, 0.0, 0.0)];
    }
  }

  method BuildTriangles(ws: nat, hs: nat) returns (ts: seq<Triangle>)
    ensures ts == GridTriangles(ws, hs)
  {
    ts := [];
    var i := 0;
    while i < hs
      invariant 0 <= i <= hs
      invariant ts == GridTriangles(ws, i)
    {
      var j := 0;
      while j < ws
        invariant 0 <= j <= ws
        invariant ts == GridTriangles(ws, i) + RowTriangles(i, ws, j)
      {
        ts := ts + [DlTriangle(i, j, ws + 1)];
        ts := ts + [UrTriangle(i, j, ws + 1)];
        j := j + 1;
      }
      i := i + 1;
    }
  }

  /** The quad construction as add_quad performs it: the subdivision check, then
      the vertex, normal and triangle loops. */
  method BuildQuadMesh(ws: nat, hs: nat) returns (r: Result<Mesh>)
    ensures r == QuadMesh(ws, hs)
  {
    if ws == 0 || hs == 0 {
      return Err(ZeroSubdivisions);
    }
    var vs := BuildVertices(ws, hs);
    var ns := BuildNormals((hs + 1) * (ws + 1));
    var ts := BuildTriangles(ws, hs);
    GridLength(ws, hs + 1);
    r := Ok(Mesh(|vs|, ts, |ns|, |vs|));
  }

  // ---------------------------------------------------------------------------
  // Counts, positions and bounds.

  lemma MulMono(a: nat, b: nat, k: nat)
    requires a <= b
    ensures a * k <= b * k
  {
  }

  lemma {:induction false} GridLength(ws: nat, rows: nat)
    ensures |Grid(ws, rows)| == rows * (ws + 1)
  {
    if rows > 0 {
      GridLength(ws, rows - 1);
      assert rows * (ws + 1) == (rows - 1) * (ws + 1) + (ws + 1);
    }
  }

  /** Vertex number `Corner(r, c, ws + 1)` is grid point (r, c). */
  lemma {:induction false} GridAt(ws: nat, rows: nat, r: nat, c: nat)
    requires r < rows && c <= ws
    ensures Corner(r, c, ws + 1) < |Grid(ws, rows)|
    ensures Grid(ws, rows)[Corner(r, c, ws + 1)] == GridPoint(r, c)
  {
    GridLength(ws, rows - 1);
    GridLength(ws, rows);
    assert (r + 1) * (ws + 1) == r * (ws + 1) + (ws + 1);
    if r == rows - 1 {
      assert Grid(ws, rows)[Corner(r, c, ws + 1)] == GridRow(r, ws)[c];
    } else {
      MulMono(r + 1, rows - 1, ws + 1);
      GridAt(ws, rows - 1, r, c);
    }
  }

  lemma {:induction false} TrianglesLength(ws: nat, rows: nat)
    ensures |GridTriangles(ws, rows)| == 2 * (rows * ws)
  {
    if rows > 0 {
      TrianglesLength(ws, rows - 1);
      assert rows * ws == (rows - 1) * ws + ws;
    }
  }

  lemma {:induction false} RowTriangleAt(i: nat, ws: nat, n: nat, j: nat)
    requires j < n
    ensures RowTriangles(i, ws, n)[2 * j] == DlTriangle(i, j, ws + 1)
    ensures RowTriangles(i, ws, n)[2 * j + 1] == UrTriangle(i, j, ws + 1)
  {
    if j < n - 1 {
      RowTriangleAt(i, ws, n - 1, j);
    }
  }

  /** Cell (i, j) owns triangles 2(i·ws + j) and 2(i·ws + j) + 1: the lower-left one
      first, then the upper-right one. */
  lemma {:induction false} TriangleAt(ws: nat, rows: nat, i: nat, j: nat)
    requires i < rows && j < ws
    ensures 2 * (i * ws + j) + 1 < |GridTriangles(ws, rows)|
    ensures GridTriangles(ws, rows)[2 * (i * ws + j)] == DlTriangle(i, j, ws + 1)
    ensures GridTriangles(ws, rows)[2 * (i * ws + j) + 1] == UrTriangle(i, j, ws + 1)
  {
    var prev := GridTriangles(ws, rows - 1);
    var row := RowTriangles(rows - 1, ws, ws);
    assert GridTriangles(ws, rows) == prev + row;
    TrianglesLength(ws, rows - 1);
    MulMono(0, i, ws);
    var k := 2 * (i * ws + j);
    if i == rows - 1 {
      assert i * ws == (rows - 1) * ws;
      assert k == |prev| + 2 * j;
      RowTriangleAt(rows - 1, ws, ws, j);
      ConcatRight(prev, row, 2 * j);
      ConcatRight(prev, row, 2 * j + 1);
    } else {
      EarlierCell(ws, rows, i, j);
      TriangleAt(ws, rows - 1, i, j);
      ConcatLeft(prev, row, k);
      ConcatLeft(prev, row, k + 1);
    }
  }

  lemma ConcatRight<T>(a: seq<T>, b: seq<T>, k: nat)
    requires k < |b|
    ensures (a + b)[|a| + k] == b[k]
  {
  }

  /** A cell before the last row has both its triangles before that row's. */
  lemma EarlierCell(ws: nat, rows: nat, i: nat, j: nat)
    requires i < rows - 1 && j < ws
    ensures 2 * (i * ws + j) + 1 < 2 * ((rows - 1) * ws)
  {
    MulMono(i + 1, rows - 1, ws);
    assert (i + 1) * ws == i * ws + ws;
  }

  lemma ConcatLeft<T>(a: seq<T>, b: seq<T>, k: nat)
    requires k < |a|
    ensures (a + b)[k] == a[k]
  {
  }

  /** All three indices of `t` are below `bound`. */
  predicate Below(t: Triangle, bound: int) {
    t.a < bound && t.b < bound && t.c < bound
  }

  /** Without wrap-around, the highest corner of a cell is still a vertex. */
  lemma CornerBound(ws: nat, hs: nat, i: nat, j: nat)
    requires i < hs && j < ws
    ensures Corner(i, j, ws + 1) < Corner(i, j + 1, ws + 1) < Corner(i + 1, j + 1, ws + 1)
    ensures Corner(i, j + 1, ws + 1) < Corner(i + 1, j, ws + 1) < Corner(i + 1, j + 1, ws + 1)
    ensures Corner(i + 1, j + 1, ws + 1) < (hs + 1) * (ws + 1)
  {
    assert (i + 1) * (ws + 1) == i * (ws + 1) + (ws + 1);
    assert (i + 2) * (ws + 1) == (i + 1) * (ws + 1) + (ws + 1);
    MulMono(i + 2, hs + 1, ws + 1);
  }

  lemma Wrap32Small(x: nat)
    requires x < U32
    ensures Wrap32(x) == x
  {
  }

  /** Wrapping never raises an index. */
  lemma Wrap32Shrinks(x: nat)
    ensures Wrap32(x) <= x
  {
  }

  lemma {:induction false} RowTrianglesInRange(ws: nat, hs: nat, i: nat, n: nat)
    requires i < hs && n <= ws
    ensures forall k :: 0 <= k < |RowTriangles(i, ws, n)| ==> Below(RowTriangles(i, ws, n)[k], (hs + 1) * (ws + 1))
  {
    if n > 0 {
      var bound := (hs + 1) * (ws + 1);
      RowTrianglesInRange(ws, hs, i, n - 1);
      CornerBound(ws, hs, i, n - 1);
      Wrap32Shrinks(Corner(i, n - 1, ws + 1));
      Wrap32Shrinks(Corner(i, n, ws + 1));
      Wrap32Shrinks(Corner(i + 1, n - 1, ws + 1));
      Wrap32Shrinks(Corner(i + 1, n, ws + 1));
      var prev := RowTriangles(i, ws, n - 1);
      var last := [DlTriangle(i, n - 1, ws + 1), UrTriangle(i, n - 1, ws + 1)];
      assert Below(last[0], bound) && Below(last[1], bound);
      forall k | 0 <= k < |prev + last|
        ensures Below((prev + last)[k], bound)
      {
        if k < |prev| {
          assert (prev + last)[k] == prev[k];
        } else {
          assert (prev + last)[k] == last[k - |prev|];
        }
      }
    }
  }

  lemma {:induction false} TrianglesInRangeUpTo(ws: nat, hs: nat, rows: nat)
    requires rows <= hs
    ensures forall k :: 0 <= k < |GridTriangles(ws, rows)| ==> Below(GridTriangles(ws, rows)[k], (hs + 1) * (ws + 1))
  {
    if rows > 0 {
      TrianglesInRangeUpTo(ws, hs, rows - 1);
      RowTrianglesInRange(ws, hs, rows - 1, ws);
    }
  }

  /** Every index of every triangle names a vertex of the quad. This holds even when
      the 32-bit indices wrap around, since wrapping only lowers an index. */
  lemma TrianglesInRange(ws: nat, hs: nat)
    ensures forall k :: 0 <= k < |GridTriangles(ws, hs)| ==> Below(GridTriangles(ws, hs)[k], (hs + 1) * (ws + 1))
  {
    TrianglesInRangeUpTo(ws, hs, hs);
  }

  /** Without wrap-around, the triangles of cell (i, j) join exactly the cell's four
      corners: (i+1, j), (i, j), (i+1, j+1) and (i, j), (i, j+1), (i+1, j+1). */
  lemma CellCorners(ws: nat, hs: nat, i: nat, j: nat)
    requires i < hs && j < ws
    requires (hs + 1) * (ws + 1) <= U32
    ensures var g := Grid(ws, hs + 1);
      var dl := DlTriangle(i, j, ws + 1);
      var ur := UrTriangle(i, j, ws + 1);
      && dl.a < |g| && dl.b < |g| && dl.c < |g| && ur.a < |g| && ur.b < |g| && ur.c < |g|
      && g[dl.a] == GridPoint(i + 1, j) && g[dl.b] == GridPoint(i, j) && g[dl.c] == GridPoint(i + 1, j + 1)
      && g[ur.a] == GridPoint(i, j) && g[ur.b] == GridPoint(i, j + 1) && g[ur.c] == GridPoint(i + 1, j + 1)
  {
    var c00, c01 := Corner(i, j, ws + 1), Corner(i, j + 1, ws + 1);
    var c10, c11 := Corner(i + 1, j, ws + 1), Corner(i + 1, j + 1, ws + 1);
    CornerBound(ws, hs, i, j);
    Wrap32Small(c00);
    Wrap32Small(c01);
    Wrap32Small(c10);
    Wrap32Small(c11);
    assert DlTriangle(i, j, ws + 1) == Triangle(c10, c00, c11);
    assert UrTriangle(i, j, ws + 1) == Triangle(c00, c01, c11);
    GridAt(ws, hs + 1, i, j);
    GridAt(ws, hs + 1, i, j + 1);
    GridAt(ws, hs + 1, i + 1, j);
    GridAt(ws, hs + 1, i + 1, j + 1);
  }

  /** A 4 x 4 quad has 25 vertices and 32 triangles. */
  lemma FourByFourQuad()
    ensures QuadMesh(4, 4).Ok?
    ensures QuadMesh(4, 4).value.vertexCount == 25 && |QuadMesh(4, 4).value.faces| == 32
  {
  }
}

=== FILE: trace.dfy ===
/** The observable behaviour of the renderer: the ordered sequence of calls it makes
    into the graphics API and into collaborators whose code is not part of this model
    (mesh loader, shader selector, camera, post-processing effect, window system). */
module Trace {
  import opened LinAlg
  import opened Events

  datatype Program = ObjectProgram | LinesProgram

  datatype TexFormat = Rgba | DepthComponent

  datatype Fill = FillMode | LineMode

  datatype Call =
    // framebuffers
    | GenFramebuffers(fbo: nat)
    | BindFramebuffer(fbo: nat)
    | AttachColor(texture: nat)
    | AttachDepth(texture: nat)
    | GenTexture(texture: nat)
    | ActiveTexture(unit: nat)
    | BindTexture(texture: nat)
    | TexParameters
    | TexImage2D(format: TexFormat, w: int, h: int)
    | Viewport(w: int, h: int)
    // objects
    | UniformTransform(t: Iso)
    | UniformNormalTransform(t: Iso)
    | UniformScale(s: Scale)
    | UniformColor(c: Vec3)
    | BindMesh(mesh: nat)
    | DrawElements(count: nat)
    | UnbindMesh(mesh: nat)
    | UploadMesh(mesh: nat)
    // window and frame
    | ParseObjFile(path: string)
    | UserHandler(e: Event)
    | CameraEvent(e: Event)
    | CameraUpdate
    | Scissor(w: int, h: int)
    | SelectProgram(p: Program)
    | StartPass(pass: nat)
    | UploadCamera(pass: nat, p: Program)
    | RenderComplete
    | ClearColor(c: Vec3)
    | ClearColorBuffer
    | ClearDepthBuffer
    | UploadLines
    | PolygonMode(mode: Fill)
    | PostProcessUpdate(dt: real, width: real, height: real, znear: real, zfar: real)
    | PostProcessDraw(color: nat, depth: nat)
    | SwapBuffers
    | Sleep(ms: nat)

  /** The index counts of the draw calls in `calls`, in issue order. */
  function DrawCounts(calls: seq<Call>): (r: seq<nat>)
    ensures |r| <= |calls|
  {
    if calls == [] then []
    else (if calls[0].DrawElements? then [calls[0].count] else []) + DrawCounts(calls[1..])
  }

  lemma {:induction false} DrawCountsAppend(a: seq<Call>, b: seq<Call>)
    ensures DrawCounts(a + b) == DrawCounts(a) + DrawCounts(b)
  {
    if a == [] {
      assert a + b == b;
    } else {
      var ab := a + b;
      assert ab[0] == a[0];
      assert ab[1..] == a[1..] + b;
      DrawCountsAppend(a[1..], b);
      var head := if a[0].DrawElements? then [a[0].count] else [];
      calc {
        DrawCounts(ab);
        head + DrawCounts(ab[1..]);
        head + (DrawCounts(a[1..]) + DrawCounts(b));
        (head + DrawCounts(a[1..])) + DrawCounts(b);
      }
    }
  }

  /** The events forwarded to the camera by `calls`, in order. */
  function CameraEvents(calls: seq<Call>): (r: seq<Event>)
    ensures |r| <= |calls|
  {
    if calls == [] then []
    else (if calls[0].CameraEvent? then [calls[0].e] else []) + CameraEvents(calls[1..])
  }

  lemma {:induction false} CameraEventsAppend(a: seq<Call>, b: seq<Call>)
    ensures CameraEvents(a + b) == CameraEvents(a) + CameraEvents(b)
  {
    if a == [] {
      assert a + b == b;
    } else {
      var ab := a + b;
      assert ab[0] == a[0];
      assert ab[1..] == a[1..] + b;
      CameraEventsAppend(a[1..], b);
      var head := if a[0].CameraEvent? then [a[0].e] else [];
      calc {
        CameraEvents(ab);
        head + CameraEvents(ab[1..]);
        head + (CameraEvents(a[1..]) + CameraEvents(b));
        (head + CameraEvents(a[1..])) + CameraEvents(b);
      }
    }
  }

  /** The pass starts and camera uploads in `calls`, in order. */
  function CameraCalls(calls: seq<Call>): (r: seq<Call>)
    ensures |r| <= |calls|
    ensures forall k :: 0 <= k < |r| ==> r[k].StartPass? || r[k].UploadCamera?
  {
    if calls == [] then []
    else (if calls[0].StartPass? || calls[0].UploadCamera? then [calls[0]] else []) + CameraCalls(calls[1..])
  }

  lemma {:induction false} CameraCallsAppend(a: seq<Call>, b: seq<Call>)
    ensures CameraCalls(a + b) == CameraCalls(a) + CameraCalls(b)
  {
    if a == [] {
      assert a + b == b;
    } else {
      var ab := a + b;
      assert ab[0] == a[0];
      assert ab[1..] == a[1..] + b;
      CameraCallsAppend(a[1..], b);
      var head := if a[0].StartPass? || a[0].UploadCamera? then [a[0]] else [];
      calc {
        CameraCalls(ab);
        head + CameraCalls(ab[1..]);
        head + (CameraCalls(a[1..]) + CameraCalls(b));
        (head + CameraCalls(a[1..])) + CameraCalls(b);
      }
    }
  }

  /** A segment of calls that neither starts a pass nor hands the camera to a program. */
  predicate NoCameraCalls(calls: seq<Call>) {
    forall k :: 0 <= k < |calls| ==> !calls[k].StartPass? && !calls[k].UploadCamera?
  }

  lemma NoCameraCallsAppend(a: seq<Call>, b: seq<Call>)
    requires NoCameraCalls(a) && NoCameraCalls(b)
    ensures NoCameraCalls(a + b)
  {
    forall k | 0 <= k < |a + b| ensures !(a + b)[k].StartPass? && !(a + b)[k].UploadCamera? {
      if k < |a| { assert (a + b)[k] == a[k]; } else { assert (a + b)[k] == b[k - |a|]; }
    }
  }

  lemma {:induction false} NoCameraCallsFilterEmpty(calls: seq<Call>)
    requires NoCameraCalls(calls)
    ensures CameraCalls(calls) == []
  {
    if calls != [] {
      NoCameraCallsFilterEmpty(calls[1..]);
    }
  }

  /** Segments without camera calls around `mid` add none. */
  lemma CameraCallsBetween(pre: seq<Call>, mid: seq<Call>, post: seq<Call>)
    requires NoCameraCalls(pre) && NoCameraCalls(post)
    ensures CameraCalls(pre + mid + post) == CameraCalls(mid)
  {
    NoCameraCallsFilterEmpty(pre);
    NoCameraCallsFilterEmpty(post);
    CameraCallsAppend(pre, mid);
    CameraCallsAppend(pre + mid, post);
  }

  /** A segment of calls with no draw call in it. */
  predicate NoDraws(calls: seq<Call>) {
    forall k :: 0 <= k < |calls| ==> !calls[k].DrawElements?
  }

  lemma NoDrawsAppend(a: seq<Call>, b: seq<Call>)
    requires NoDraws(a) && NoDraws(b)
    ensures NoDraws(a + b)
  {
    forall k | 0 <= k < |a + b| ensures !(a + b)[k].DrawElements? {
      if k < |a| { assert (a + b)[k] == a[k]; } else { assert (a + b)[k] == b[k - |a|]; }
    }
  }

  lemma {:induction false} NoDrawsHaveNoCounts(calls: seq<Call>)
    requires NoDraws(calls)
    ensures DrawCounts(calls) == []
  {
    if calls != [] {
      NoDrawsHaveNoCounts(calls[1..]);
    }
  }

  /** Draw-free segments around `mid` add no draws. */
  lemma CountsBetween(pre: seq<Call>, mid: seq<Call>, post: seq<Call>)
    requires NoDraws(pre) && NoDraws(post)
    ensures DrawCounts(pre + mid + post) == DrawCounts(mid)
  {
    NoDrawsHaveNoCounts(pre);
    NoDrawsHaveNoCounts(post);
    DrawCountsAppend(pre, mid);
    DrawCountsAppend(pre + mid, post);
  }

  /** `n` copies of `s` laid end to end. */
  function Repeat<T>(n: nat, s: seq<T>): (r: seq<T>)
    ensures |r| == n * |s|
  {
    if n == 0 then [] else Repeat(n - 1, s) + s
  }
}

=== FILE: window.dfy ===
/** The window and its scene: the object list, the path-keyed geometry registry, the
    frame cap, the event queue, and the per-frame orchestration (event dispatch,
    render-target selection, camera passes, post-processing, present, throttle).
    The active camera, the shader selector, the line batcher and the post-processing
    effect are collaborators: what the window asks of them appears in the call trace. */
module Window {
  import opened Common
  import opened LinAlg
  import opened Events
  import opened Trace
  import opened Framebuffers
  import opened Objects
  import opened Quad

  datatype Window = Window(
    maxMsPerFrame: Option<nat>,
    objects: seq<Object>,
    store: Store,
    geometries: map<string, nat>,
    wireframe: bool,
    background: Vec3,
    postProcessing: bool,      // whether a post-processing effect is attached
    ppTarget: RenderTarget,    // the offscreen target the effect consumes
    fbm: Manager,
    events: seq<Event>,
    shouldClose: bool,
    defaultTexture: nat,       // the registry's "default" texture
    numPasses: nat,            // what the active camera reports as its pass count
    linesPending: bool         // whether the line batcher has lines to draw
  )

  /** Every listed object and every registered geometry is a live allocation. */
  predicate WellFormed(w: Window) {
    && Objects.Valid(w.store)
    && (forall k :: 0 <= k < |w.objects| ==> Live(w.store, w.objects[k]))
    && (forall p :: p in w.geometries ==> w.geometries[p] in w.store.meshes)
  }

  /** Appending a live object to a window whose store only grew keeps it well formed. */
  lemma AppendKeepsWellFormed(w: Window, s: Store, o: Object, geometries: map<string, nat>)
    requires WellFormed(w) && Objects.Valid(s) && Extends(w.store, s) && Live(s, o)
    requires forall p :: p in geometries ==> geometries[p] in s.meshes
    ensures WellFormed(w.(store := s, objects := w.objects + [o], geometries := geometries))
  {
    var objs := w.objects + [o];
    forall k | 0 <= k < |objs| ensures Live(s, objs[k]) {
      if k < |w.objects| {
        assert objs[k] == w.objects[k];
        assert Live(w.store, w.objects[k]);
      }
    }
  }

  // ---------------------------------------------------------------------------
  // Frame cap.

  /** Stores the per-frame budget in milliseconds; a rate of 0 aborts. */
  function SetFramerateLimit(w: Window, fps: Option<nat>): (r: Result<Window>)
    ensures r.Err? <==> fps == Some(0)
    ensures r.Err? ==> r.error == ZeroFramerate
    ensures r.Ok? ==> r.value.(maxMsPerFrame := w.maxMsPerFrame) == w
    ensures r.Ok? && fps.None? ==> r.value.maxMsPerFrame.None?
    ensures r.Ok? && fps.Some? ==>
      && r.value.maxMsPerFrame.Some?
      && r.value.maxMsPerFrame.value * fps.value <= 1000 < (r.value.maxMsPerFrame.value + 1) * fps.value
  {
    match fps
    case None => Ok(w.(maxMsPerFrame := None))
    case Some(f) =>
      if f == 0 then Err(ZeroFramerate) else Ok(w.(maxMsPerFrame := Some(1000 / f)))
  }

  /** Whole milliseconds in a nanosecond duration (integer division). */
  function Millis(ns: nat): (ms: nat)
    ensures ms * 1000000 <= ns < (ms + 1) * 1000000
  {
    ns / 1000000
  }

  /** The end-of-frame throttle: sleeps for what is left of the budget, if anything. */
  function Throttle(cap: Option<nat>, elapsedNs: nat): (calls: seq<Call>)
    ensures cap.None? ==> calls == []
    ensures cap.Some? ==> (calls != [] <==> Millis(elapsedNs) < cap.value)
    ensures calls != [] ==>
      && cap.Some? && |calls| == 1 && calls[0].Sleep?
      && 0 < calls[0].ms <= cap.value
      && Millis(elapsedNs) + calls[0].ms == cap.value
    ensures NoDraws(calls) && FramebufferNeutral(calls)
  {
    match cap
    case None => []
    case Some(ms) =>
      var elapsed := Millis(elapsedNs);
      if elapsed < ms then [Sleep(ms - elapsed)] else []
  }

  /** With a cap of 50 frames per second and 5 ms spent, the frame sleeps 15 ms. */
  lemma FiftyFpsExample(w: Window)
    ensures SetFramerateLimit(w, Some(50)).Ok?
    ensures SetFramerateLimit(w, Some(50)).value.maxMsPerFrame == Some(20)
    ensures Throttle(Some(20), 5000000) == [Sleep(15)]
  {
  }

  // ---------------------------------------------------------------------------
  // Removal by identity.

  /** The last position holding an object equal to `o`. */
  function LastMatch(s: seq<Object>, o: Object): (r: Option<nat>)
    ensures r.Some? ==>
      && r.value < |s| && Equal(s[r.value], o)
      && forall k :: r.value < k < |s| ==> !Equal(s[k], o)
    ensures r.None? ==> forall k :: 0 <= k < |s| ==> !Equal(s[k], o)
  {
    if |s| == 0 then None
    else if Equal(s[|s| - 1], o) then Some(|s| - 1)
    else LastMatch(s[..|s| - 1], o)
  }

  /** Removes position `i` by moving the last element into it. */
  function SwapRemove(s: seq<Object>, i: nat): (r: seq<Object>)
    requires i < |s|
    ensures |r| == |s| - 1
    ensures forall k :: 0 <= k < |r| && k != i ==> r[k] == s[k]
    ensures i < |r| ==> r[i] == s[|s| - 1]
    ensures multiset(r) == multiset(s) - multiset{s[i]}
  {
    var r := s[i := s[|s| - 1]][..|s| - 1];
    if i == |s| - 1 then
      assert s == r + [s[i]];
      r
    else
      assert s == s[..i] + [s[i]] + s[i + 1..|s| - 1] + [s[|s| - 1]];
      assert r == s[..i] + [s[|s| - 1]] + s[i + 1..|s| - 1];
      r
  }

  /** Removes the last entry equal to `o`; nothing happens when there is none. */
  function Remove(w: Window, o: Object): (w': Window)
    ensures w'.(objects := w.objects) == w
    ensures LastMatch(w.objects, o).None? ==> w'.objects == w.objects
    ensures LastMatch(w.objects, o).Some? ==>
      var i := LastMatch(w.objects, o).value;
      && |w'.objects| == |w.objects| - 1
      && multiset(w'.objects) == multiset(w.objects) - multiset{w.objects[i]}
  {
    match LastMatch(w.objects, o)
    case None => w
    case Some(i) => w.(objects := SwapRemove(w.objects, i))
  }

  /** Number of entries of `s` equal to `o`. */
  function Matches(s: seq<Object>, o: Object): nat {
    if |s| == 0 then 0 else Matches(s[..|s| - 1], o) + (if Equal(s[|s| - 1], o) then 1 else 0)
  }

  lemma {:induction false} MatchesMultiset(s: seq<Object>, o: Object)
    ensures Matches(s, o) == 0 <==> forall k :: 0 <= k < |s| ==> !Equal(s[k], o)
  {
    if |s| > 0 {
      MatchesMultiset(s[..|s| - 1], o);
      if Matches(s, o) == 0 {
        forall k | 0 <= k < |s| ensures !Equal(s[k], o) {
          if k < |s| - 1 { assert s[k] == s[..|s| - 1][k]; }
        }
      }
    }
  }

  /** Removal keeps every object that is not identical to `o`, with its multiplicity,
      and drops exactly one identical entry when there is one. */
  lemma RemoveKeepsOthers(w: Window, o: Object, x: Object)
    requires !Equal(x, o)
    ensures multiset(Remove(w, o).objects)[x] == multiset(w.objects)[x]
    ensures (exists k :: 0 <= k < |w.objects| && Equal(w.objects[k], o)) ==>
      |Remove(w, o).objects| == |w.objects| - 1
  {
    match LastMatch(w.objects, o)
    case None =>
    case Some(i) =>
      assert w.objects[i] != x;
  }

  // ---------------------------------------------------------------------------
  // Adding objects.

  /** Adds an object backed by a model file. The file is parsed (through `load`) only
      the first time its path is seen; later calls share the registered mesh. */
  function AddObj(w: Window, path: string, scale: real, load: string -> Mesh): (r: (Window, Object, seq<Call>))
    requires WellFormed(w)
    ensures var (w', o, calls) := r;
      && WellFormed(w')
      && w'.(objects := w.objects, store := w.store, geometries := w.geometries) == w
      && w'.objects == w.objects + [o]
      && o.data !in w.store.data
      && w'.store.data == w.store.data[o.data := ObjectData(w.defaultTexture, Diagonal(scale, scale, scale),
                                                           Identity, Vec3(1.0, 1.0, 1.0), true)]
      && path in w'.geometries && w'.geometries[path] == o.mesh
      && (path in w.geometries ==>
            o.mesh == w.geometries[path] && w'.geometries == w.geometries
            && w'.store.meshes == w.store.meshes && calls == [])
      && (path !in w.geometries ==>
            o.mesh !in w.store.meshes && w'.store.meshes == w.store.meshes[o.mesh := load(path)]
            && w'.geometries == w.geometries[path := o.mesh] && calls == [ParseObjFile(path)])
  {
    var (s1, mesh, calls) :=
      if path in w.geometries then (w.store, w.geometries[path], [])
      else
        var (s, m) := AddMesh(w.store, load(path));
        (s, m, [ParseObjFile(path)]);
    var geometries := w.geometries[path := mesh];
    var (s2, o) := NewObject(s1, mesh, 1.0, 1.0, 1.0, w.defaultTexture, scale, scale, scale);
    AppendKeepsWellFormed(w, s2, o, geometries);
    (w.(store := s2, geometries := geometries, objects := w.objects + [o]), o, calls)
  }

  /** Adding the same model file twice parses it once and shares its mesh between two
      distinct objects. */
  lemma AddObjTwiceSharesMesh(w: Window, path: string, s1: real, s2: real, load: string -> Mesh)
    requires WellFormed(w)
    ensures var (w1, o1, c1) := AddObj(w, path, s1, load);
      var (w2, o2, c2) := AddObj(w1, path, s2, load);
      && o1.mesh == o2.mesh
      && !Equal(o1, o2)
      && multiset(c1 + c2)[ParseObjFile(path)] == (if path in w.geometries then 0 else 1)
      && |w2.objects| == |w.objects| + 2
  {
  }

  /** The quad primitive: a fresh mesh from the grid construction, under a unit-scaled,
      white, default-textured object. */
  function AddQuad(w: Window, width: real, height: real, ws: nat, hs: nat): (r: Result<(Window, Object)>)
    requires WellFormed(w)
    ensures r.Err? <==> ws == 0 || hs == 0
    ensures r.Ok? ==> var (w', o) := r.value;
      && WellFormed(w')
      && w'.(objects := w.objects, store := w.store) == w
      && w'.objects == w.objects + [o]
      && o.mesh !in w.store.meshes && o.data !in w.store.data
      && w'.store.meshes == w.store.meshes[o.mesh := QuadMesh(ws, hs).value]
      && w'.store.data == w.store.data[o.data := ObjectData(w.defaultTexture, Diagonal(1.0, 1.0, 1.0),
                                                           Identity, Vec3(1.0, 1.0, 1.0), true)]
      && w'.store.meshes[o.mesh].vertexCount == (hs + 1) * (ws + 1)
      && |w'.store.meshes[o.mesh].faces| == 2 * (hs * ws)
      && w'.geometries == w.geometries
  {
    match QuadMesh(ws, hs)
    case Err(e) => Err(e)
    case Ok(mesh) =>
      var (s1, m) := AddMesh(w.store, mesh);
      var (s2, o) := NewObject(s1, m, 1.0, 1.0, 1.0, w.defaultTexture, 1.0, 1.0, 1.0);
      AppendKeepsWellFormed(w, s2, o, w.geometries);
      Ok((w.(store := s2, objects := w.objects + [o]), o))
  }

  /** The built-in primitives and the dimensions they are created with. */
  datatype Primitive =
    | Cube(wx: real, wy: real, wz: real)
    | Sphere(r: real)
    | Cone(h: real, r: real)
    | Cylinder(h: real, r: real)
    | Capsule(h: real, r: real)

  /** The registry name of a primitive's geometry. */
  function GeometryName(p: Primitive): string {
    match p
    case Cube(_, _, _) => "cube"
    case Sphere(_) => "sphere"
    case Cone(_, _) => "cone"
    case Cylinder(_, _) => "cylinder"
    case Capsule(_, _) => "capsule"
  }

  /** The scale a primitive's unit geometry is stretched by; the unit sphere, cone,
      cylinder and capsule have radius 0.5. */
  function PrimitiveScale(p: Primitive): Scale {
    match p
    case Cube(wx, wy, wz) => Diagonal(wx, wy, wz)
    case Sphere(r) => Diagonal(r / 0.5, r / 0.5, r / 0.5)
    case Cone(h, r) => Diagonal(r / 0.5, h, r / 0.5)
    case Cylinder(h, r) => Diagonal(r / 0.5, h, r / 0.5)
    case Capsule(h, r) => Diagonal(r / 0.5, h, r / 0.5)
  }

  /** Adds a built-in primitive; its geometry must already be registered. */
  function AddPrimitive(w: Window, p: Primitive): (r: Result<(Window, Object)>)
    requires WellFormed(w)
    ensures r.Err? <==> GeometryName(p) !in w.geometries
    ensures r.Err? ==> r.error == MissingGeometry(GeometryName(p))
    ensures r.Ok? ==> var (w', o) := r.value;
      && WellFormed(w')
      && w'.objects == w.objects + [o]
      && o.mesh == w.geometries[GeometryName(p)]
      && w'.(objects := w.objects, store := w.store) == w
      && o.data !in w.store.data
      && w'.store.data == w.store.data[o.data := ObjectData(w.defaultTexture, PrimitiveScale(p),
                                                           Identity, Vec3(1.0, 1.0, 1.0), true)]
      && w'.store.meshes == w.store.meshes && w'.geometries == w.geometries
  {
    var name := GeometryName(p);
    if name !in w.geometries then Err(MissingGeometry(name))
    else
      var sc := PrimitiveScale(p);
      var (s, o) := NewObject(w.store, w.geometries[name], 1.0, 1.0, 1.0, w.defaultTexture, sc.sx, sc.sy, sc.sz);
      AppendKeepsWellFormed(w, s, o, w.geometries);
      Ok((w.(store := s, objects := w.objects + [o]), o))
  }

  // ---------------------------------------------------------------------------
  // Event dispatch.

  /** Viewport update on a resize: scissor box, screen viewport, offscreen storage. */
  function UpdateViewport(w: Window, width: real, height: real): (calls: seq<Call>)
    ensures |calls| >= 2 && calls[0] == Scissor(Trunc(width), Trunc(height))
    ensures calls[1] == Viewport(Trunc(width), Trunc(height))
    ensures calls[2..] == Resize(w.ppTarget, width, height)
    ensures Viewport(Trunc(width), Trunc(height)) in calls
    ensures FramebufferNeutral(calls) && NoDraws(calls)
    ensures CameraEvents(calls) == []
  {
    var head := [Scissor(Trunc(width), Trunc(height))] + Resize(Screen, width, height);
    var re := Resize(w.ppTarget, width, height);
    assert head == [Scissor(Trunc(width), Trunc(height)), Viewport(Trunc(width), Trunc(height))];
    ResizeIsQuiet(w.ppTarget, width, height);
    ViewportThen(Trunc(width), Trunc(height), re);
    head + re
  }

  /** Setting the scissor box and the viewport before a quiet segment keeps it quiet. */
  lemma ViewportThen(width: int, height: int, rest: seq<Call>)
    requires FramebufferNeutral(rest) && NoDraws(rest) && CameraEvents(rest) == []
    ensures var calls := [Scissor(width, height), Viewport(width, height)] + rest;
      && |calls| >= 2 && calls[0] == Scissor(width, height) && calls[1] == Viewport(width, height)
      && calls[2..] == rest
      && Viewport(width, height) in calls
      && FramebufferNeutral(calls) && NoDraws(calls)
      && CameraEvents(calls) == []
  {
    var head := [Scissor(width, height), Viewport(width, height)];
    NoCameraEvents(head);
    CameraEventsAppend(head, rest);
    NoDrawsAppend(head, rest);
    NeutralAppend(head, rest);
    assert (head + rest)[2..] == rest;
  }

  /** Resizing a target draws nothing and reaches no camera. */
  lemma ResizeIsQuiet(t: RenderTarget, width: real, height: real)
    ensures NoDraws(Resize(t, width, height)) && CameraEvents(Resize(t, width, height)) == []
  {
    NoCameraEvents(Resize(t, width, height));
  }

  /** A resize with an offscreen post-processing target reallocates its colour and depth
      storage at the truncated window size. */
  lemma UpdateViewportReallocates(w: Window, width: real, height: real)
    requires w.ppTarget.Offscreen?
    ensures TexImage2D(Rgba, Trunc(width), Trunc(height)) in UpdateViewport(w, width, height)
    ensures TexImage2D(DepthComponent, Trunc(width), Trunc(height)) in UpdateViewport(w, width, height)
  {
    var calls := UpdateViewport(w, width, height);
    var re := Resize(w.ppTarget, width, height);
    assert re[1] == TexImage2D(Rgba, Trunc(width), Trunc(height));
    assert re[4] == TexImage2D(DepthComponent, Trunc(width), Trunc(height));
    assert calls[3] == re[1] && calls[6] == re[4];
  }

  lemma {:induction false} NoCameraEvents(calls: seq<Call>)
    requires forall k :: 0 <= k < |calls| ==> !calls[k].CameraEvent?
    ensures CameraEvents(calls) == []
  {
    if calls != [] {
      NoCameraEvents(calls[1..]);
    }
  }

  /** A resize updates the viewport, then reaches the camera. */
  function ResizeCalls(w: Window, e: Event): (calls: seq<Call>)
    requires e.FramebufferSize?
    ensures |calls| > 0 && calls[|calls| - 1] == CameraEvent(e) && CameraEvents(calls) == [e]
    ensures Viewport(Trunc(e.w), Trunc(e.h)) in calls
    ensures NoDraws(calls)
  {
    var vp := UpdateViewport(w, e.w, e.h);
    CameraEventsAppend(vp, [CameraEvent(e)]);
    vp + [CameraEvent(e)]
  }

  /** Default handling of one event once the user handler has decided. */
  function Dispatch(w: Window, e: Event, proceed: bool): (r: (Window, seq<Call>))
    ensures r.0.(shouldClose := w.shouldClose) == w
    ensures !proceed ==> r == (w, [])
    ensures proceed && e == KeyReleased(KeyEscape) ==> r == (w.(shouldClose := true), [])
    ensures proceed && e != KeyReleased(KeyEscape) ==>
      r.0 == w && |r.1| > 0 && r.1[|r.1| - 1] == CameraEvent(e) && CameraEvents(r.1) == [e]
    ensures proceed && e.FramebufferSize? ==> Viewport(Trunc(e.w), Trunc(e.h)) in r.1
    ensures NoDraws(r.1)
  {
    if !proceed then (w, [])
    else if e == KeyReleased(KeyEscape) then (w.(shouldClose := true), [])
    else if e.FramebufferSize? then (w, ResizeCalls(w, e))
    else (w, [CameraEvent(e)])
  }

  /** The events the camera receives from `es`: those the handler accepts, except an
      accepted escape release, in queue order. */
  function Forwarded(es: seq<Event>, handler: Event -> bool): seq<Event> {
    if es == [] then []
    else (if handler(es[0]) && es[0] != KeyReleased(KeyEscape) then [es[0]] else []) + Forwarded(es[1..], handler)
  }

  /** Some event of `es` is an escape release the handler accepts. */
  predicate AcceptsEscape(es: seq<Event>, handler: Event -> bool) {
    exists k :: 0 <= k < |es| && es[k] == KeyReleased(KeyEscape) && handler(es[k])
  }

  lemma AcceptsEscapeCons(es: seq<Event>, handler: Event -> bool)
    requires es != []
    ensures AcceptsEscape(es, handler) <==>
      (es[0] == KeyReleased(KeyEscape) && handler(es[0])) || AcceptsEscape(es[1..], handler)
  {
    if AcceptsEscape(es, handler) {
      var k :| 0 <= k < |es| && es[k] == KeyReleased(KeyEscape) && handler(es[k]);
      if k > 0 { assert es[1..][k - 1] == es[k]; }
    }
    if AcceptsEscape(es[1..], handler) {
      var k :| 0 <= k < |es[1..]| && es[1..][k] == KeyReleased(KeyEscape) && handler(es[1..][k]);
      assert es[k + 1] == es[1..][k];
    }
  }

  /** Runs the handler and the default handling over `es`, in order. */
  function DispatchAll(w: Window, es: seq<Event>, handler: Event -> bool): (r: (Window, seq<Call>))
    ensures r.0.(shouldClose := w.shouldClose) == w
    ensures NoDraws(r.1)
    decreases |es|
  {
    if es == [] then (w, [])
    else
      var d := Dispatch(w, es[0], handler(es[0]));
      var rest := DispatchAll(d.0, es[1..], handler);
      (rest.0, [UserHandler(es[0])] + d.1 + rest.1)
  }

  /** The window closes exactly when some accepted event is an escape release, and
      the camera receives exactly the forwarded events, in order. */
  lemma {:induction false} DispatchAllForwards(w: Window, es: seq<Event>, handler: Event -> bool)
    ensures DispatchAll(w, es, handler).0.shouldClose == (w.shouldClose || AcceptsEscape(es, handler))
    ensures CameraEvents(DispatchAll(w, es, handler).1) == Forwarded(es, handler)
    decreases |es|
  {
    if es != [] {
      var d := Dispatch(w, es[0], handler(es[0]));
      var rest := DispatchAll(d.0, es[1..], handler);
      var head := [UserHandler(es[0])] + d.1;
      assert DispatchAll(w, es, handler) == (rest.0, head + rest.1);
      DispatchAllForwards(d.0, es[1..], handler);
      DispatchStep(w, es[0], handler(es[0]));
      CameraEventsAppend(head, rest.1);
      AcceptsEscapeCons(es, handler);
    }
  }

  /** One event's share of the dispatch: what reaches the camera and whether the
      window closes. */
  lemma DispatchStep(w: Window, e: Event, proceed: bool)
    ensures CameraEvents([UserHandler(e)] + Dispatch(w, e, proceed).1)
         == if proceed && e != KeyReleased(KeyEscape) then [e] else []
    ensures Dispatch(w, e, proceed).0.shouldClose == (w.shouldClose || (proceed && e == KeyReleased(KeyEscape)))
  {
    var d := Dispatch(w, e, proceed);
    CameraEventsAppend([UserHandler(e)], d.1);
    assert CameraEvents([UserHandler(e)]) == [];
  }

  /** Drains the event queue: every queued event goes to the handler, accepted ones
      get the default handling, and the queue ends empty. */
  function PollEvents(w: Window, handler: Event -> bool): (r: (Window, seq<Call>))
    ensures r.0.events == []
    ensures r.0.(shouldClose := w.shouldClose, events := w.events) == w
    ensures r.0.shouldClose == (w.shouldClose || AcceptsEscape(w.events, handler))
    ensures CameraEvents(r.1) == Forwarded(w.events, handler)
    ensures NoDraws(r.1)
  {
    DispatchAllForwards(w, w.events, handler);
    var (w1, calls) := DispatchAll(w, w.events, handler);
    (w1.(events := []), calls)
  }

  // ---------------------------------------------------------------------------
  // Drawing a frame.

  /** Uploads of the listed objects, in list order. */
  function UploadAll(s: Store, objs: seq<Object>): (calls: seq<Call>)
    requires forall k :: 0 <= k < |objs| ==> Live(s, objs[k])
    ensures FramebufferNeutral(calls)
  {
    if |objs| == 0 then []
    else
      var o := objs[0];
      assert Live(s, o);
      var rest := objs[1..];
      assert forall k :: 0 <= k < |rest| ==> rest[k] == objs[k + 1];
      NeutralAppend(Upload(s, o), UploadAll(s, rest));
      Upload(s, o) + UploadAll(s, rest)
  }

  /** The draw each listed object contributes, in list order: one of its mesh's size
      per visible object, none for an invisible one. */
  function VisibleDraws(s: Store, objs: seq<Object>): seq<nat>
    requires forall k :: 0 <= k < |objs| ==> Live(s, objs[k])
  {
    if |objs| == 0 then []
    else
      var o := objs[0];
      assert Live(s, o);
      (if Visible(s, o) then [NumPts(s.meshes[o.mesh])] else []) + VisibleDraws(s, objs[1..])
  }

  lemma {:induction false} UploadAllDraws(s: Store, objs: seq<Object>)
    requires forall k :: 0 <= k < |objs| ==> Live(s, objs[k])
    ensures DrawCounts(UploadAll(s, objs)) == VisibleDraws(s, objs)
  {
    if |objs| != 0 {
      UploadAllDraws(s, objs[1..]);
      DrawCountsAppend(Upload(s, objs[0]), UploadAll(s, objs[1..]));
    }
  }

  /** The scene's preamble: clear the target, draw pending lines, set the polygon mode. */
  function SceneSetup(w: Window): (calls: seq<Call>)
    ensures |calls| > 0 && calls[|calls| - 1] == PolygonMode(if w.wireframe then LineMode else FillMode)
    ensures (UploadLines in calls) == w.linesPending
    ensures NoDraws(calls) && FramebufferNeutral(calls)
  {
    var lines := if w.linesPending then [SelectProgram(LinesProgram), UploadLines, SelectProgram(ObjectProgram)] else [];
    [ActiveTexture(0), ClearColor(w.background), ClearColorBuffer, ClearDepthBuffer] + lines
      + [PolygonMode(if w.wireframe then LineMode else FillMode)]
  }

  /** Renders the scene: the preamble, then every object's upload. */
  function RenderScene(w: Window): (calls: seq<Call>)
    requires WellFormed(w)
    ensures FramebufferNeutral(calls)
    ensures DrawCounts(calls) == VisibleDraws(w.store, w.objects)
  {
    var setup := SceneSetup(w);
    var objects := UploadAll(w.store, w.objects);
    NeutralAppend(setup, objects);
    NoDrawsHaveNoCounts(setup);
    DrawCountsAppend(setup, objects);
    UploadAllDraws(w.store, w.objects);
    setup + objects
  }

  /** One camera pass: the line program gets the camera matrices before the object
      program does, then the scene is rendered. */
  function PassCalls(w: Window, pass: nat): (calls: seq<Call>)
    requires WellFormed(w)
    ensures |calls| >= 5 && calls[..5] == [StartPass(pass), SelectProgram(LinesProgram), UploadCamera(pass, LinesProgram),
                           SelectProgram(ObjectProgram), UploadCamera(pass, ObjectProgram)]
    ensures FramebufferNeutral(calls)
    ensures DrawCounts(calls) == VisibleDraws(w.store, w.objects)
  {
    var head := [StartPass(pass), SelectProgram(LinesProgram), UploadCamera(pass, LinesProgram),
                 SelectProgram(ObjectProgram), UploadCamera(pass, ObjectProgram)];
    NoDrawsHaveNoCounts(head);
    NeutralAppend(head, RenderScene(w));
    DrawCountsAppend(head, RenderScene(w));
    assert (head + RenderScene(w))[..5] == head;
    head + RenderScene(w)
  }

  /** Passes 0 to n - 1, in order. */
  function Passes(w: Window, n: nat): (calls: seq<Call>)
    requires WellFormed(w)
    ensures FramebufferNeutral(calls)
    ensures DrawCounts(calls) == Repeat(n, VisibleDraws(w.store, w.objects))
  {
    if n == 0 then []
    else
      DrawCountsAppend(Passes(w, n - 1), PassCalls(w, n - 1));
      NeutralAppend(Passes(w, n - 1), PassCalls(w, n - 1));
      Passes(w, n - 1) + PassCalls(w, n - 1)
  }

  /** The camera's side of passes 0 to n - 1: each pass is started, then the camera
      matrices go to the line program and then to the object program. */
  function PassSchedule(n: nat): (r: seq<Call>)
    ensures |r| == 3 * n
    ensures forall p :: 0 <= p < n ==>
      && r[3 * p] == StartPass(p)
      && r[3 * p + 1] == UploadCamera(p, LinesProgram)
      && r[3 * p + 2] == UploadCamera(p, ObjectProgram)
  {
    if n == 0 then []
    else PassSchedule(n - 1) + [StartPass(n - 1), UploadCamera(n - 1, LinesProgram), UploadCamera(n - 1, ObjectProgram)]
  }

  lemma {:induction false} UploadAllHasNoCameraCalls(s: Store, objs: seq<Object>)
    requires forall k :: 0 <= k < |objs| ==> Live(s, objs[k])
    ensures NoCameraCalls(UploadAll(s, objs))
  {
    if |objs| != 0 {
      var rest := objs[1..];
      assert forall k :: 0 <= k < |rest| ==> rest[k] == objs[k + 1];
      UploadAllHasNoCameraCalls(s, rest);
      assert Live(s, objs[0]);
      UploadHasNoCameraCalls(s, objs[0]);
      NoCameraCallsAppend(Upload(s, objs[0]), UploadAll(s, rest));
    }
  }

  lemma UploadHasNoCameraCalls(s: Store, o: Object)
    requires Live(s, o)
    ensures NoCameraCalls(Upload(s, o))
  {
    var d := s.data[o.data];
    if d.visible {
      var draw := [DrawElements(NumPts(s.meshes[o.mesh])), UnbindMesh(o.mesh)];
      assert Upload(s, o) == UploadSetup(d, o.mesh) + draw;
      NoCameraCallsAppend(UploadSetup(d, o.mesh), draw);
    }
  }

  /** Rendering the scene neither starts a pass nor hands the camera to a program. */
  lemma RenderSceneHasNoCameraCalls(w: Window)
    requires WellFormed(w)
    ensures NoCameraCalls(RenderScene(w))
  {
    var setup := SceneSetup(w);
    var objects := UploadAll(w.store, w.objects);
    assert RenderScene(w) == setup + objects;
    SceneSetupHasNoCameraCalls(w);
    UploadAllHasNoCameraCalls(w.store, w.objects);
    NoCameraCallsAppend(setup, objects);
  }

  lemma SceneSetupHasNoCameraCalls(w: Window)
    ensures NoCameraCalls(SceneSetup(w))
  {
    var lines := if w.linesPending then [SelectProgram(LinesProgram), UploadLines, SelectProgram(ObjectProgram)] else [];
    var clear := [ActiveTexture(0), ClearColor(w.background), ClearColorBuffer, ClearDepthBuffer];
    var mode := [PolygonMode(if w.wireframe then LineMode else FillMode)];
    assert SceneSetup(w) == clear + lines + mode;
    NoCameraCallsAppend(clear, lines);
    NoCameraCallsAppend(clear + lines, mode);
  }

  lemma PassHeadCameraCalls(p: nat)
    ensures CameraCalls([StartPass(p), SelectProgram(LinesProgram), UploadCamera(p, LinesProgram),
                         SelectProgram(ObjectProgram), UploadCamera(p, ObjectProgram)])
      == [StartPass(p), UploadCamera(p, LinesProgram), UploadCamera(p, ObjectProgram)]
  {
    var head := [StartPass(p), SelectProgram(LinesProgram), UploadCamera(p, LinesProgram),
                 SelectProgram(ObjectProgram), UploadCamera(p, ObjectProgram)];
    CameraCallsAppend([head[0], head[1]], [head[2], head[3], head[4]]);
    assert head == [head[0], head[1]] + [head[2], head[3], head[4]];
    CameraCallsAppend([head[0]], [head[1]]);
    assert [head[0], head[1]] == [head[0]] + [head[1]];
    CameraCallsAppend([head[2]], [head[3], head[4]]);
    assert [head[2], head[3], head[4]] == [head[2]] + [head[3], head[4]];
    CameraCallsAppend([head[3]], [head[4]]);
    assert [head[3], head[4]] == [head[3]] + [head[4]];
  }

  /** The camera calls of a frame's passes follow the pass schedule. */
  lemma {:induction false} PassesFollowSchedule(w: Window, n: nat)
    requires WellFormed(w)
    ensures CameraCalls(Passes(w, n)) == PassSchedule(n)
  {
    if n != 0 {
      var p := n - 1;
      PassesFollowSchedule(w, p);
      PassCallsSchedule(w, p);
      CameraCallsAppend(Passes(w, p), PassCalls(w, p));
    }
  }

  /** One pass's camera calls: its start, then the uploads to the line and object programs. */
  lemma PassCallsSchedule(w: Window, p: nat)
    requires WellFormed(w)
    ensures CameraCalls(PassCalls(w, p)) == [StartPass(p), UploadCamera(p, LinesProgram), UploadCamera(p, ObjectProgram)]
  {
    var head := [StartPass(p), SelectProgram(LinesProgram), UploadCamera(p, LinesProgram),
                 SelectProgram(ObjectProgram), UploadCamera(p, ObjectProgram)];
    assert PassCalls(w, p) == head + RenderScene(w);
    PassHeadCameraCalls(p);
    RenderSceneHasNoCameraCalls(w);
    NoCameraCallsFilterEmpty(RenderScene(w));
    CameraCallsAppend(head, RenderScene(w));
  }

  /** Values the frame reads from collaborators: the window size, the camera's clip
      planes, and the time elapsed since the previous frame. */
  datatype FrameInput = FrameInput(width: real, height: real, znear: real, zfar: real, elapsedNs: nat)

  /** The target the passes render into. */
  function SceneTarget(w: Window): RenderTarget {
    if w.postProcessing then w.ppTarget else Screen
  }

  /** The post-processing stage: back to the screen, then the effect. */
  function PostProcess(w: Window, m: Manager, input: FrameInput): (r: (Manager, seq<Call>))
    ensures Synced(r.0, Screen) && r.0.fbo == m.fbo
    ensures |r.1| >= 2
    ensures r.1[|r.1| - 2] == PostProcessUpdate(0.016, input.width, input.height, input.znear, input.zfar)
    ensures r.1[|r.1| - 1] == PostProcessDraw(TextureId(w.ppTarget), DepthId(w.ppTarget))
    ensures NoDraws(r.1)
    ensures w.wireframe ==> r.1[0] == PolygonMode(FillMode)
    ensures PolygonMode(FillMode) in r.1 <==> w.wireframe
  {
    var fill := if w.wireframe then [PolygonMode(FillMode)] else [];
    var (m', back) := Select(m, Screen);
    var effect := [PostProcessUpdate(0.016, input.width, input.height, input.znear, input.zfar),
                   PostProcessDraw(TextureId(w.ppTarget), DepthId(w.ppTarget))];
    assert forall k :: 0 <= k < |back| ==> back[k] != PolygonMode(FillMode);
    assert PolygonMode(FillMode) in fill + back + effect <==> PolygonMode(FillMode) in fill;
    (m', fill + back + effect)
  }

  /** The effect runs with the screen bound: by the time its draw is issued, the
      driver's bound framebuffer is 0. */
  lemma PostProcessOnScreen(w: Window, m: Manager, input: FrameInput, gl: GlState)
    requires Mirrors(m, gl)
    ensures var calls := PostProcess(w, m, input).1;
      && calls[|calls| - 1] == PostProcessDraw(TextureId(w.ppTarget), DepthId(w.ppTarget))
      && Run(gl, calls[..|calls| - 1]).bound == 0
  {
    var fill := if w.wireframe then [PolygonMode(FillMode)] else [];
    var back := Select(m, Screen).1;
    var update := PostProcessUpdate(0.016, input.width, input.height, input.znear, input.zfar);
    var calls := PostProcess(w, m, input).1;
    assert calls[..|calls| - 1] == (fill + back) + [update];
    NeutralRun(gl, fill);
    SelectSound(m, Screen, gl);
    RunAppend(gl, fill, back);
    RunAppend(gl, fill + back, [update]);
    RunOne(Run(gl, fill + back), update);
  }

  /** Everything after the passes: pass completion, the optional post-processing
      stage, presentation and the throttle. */
  function FrameTail(w: Window, m: Manager, input: FrameInput): (r: (Manager, seq<Call>))
    ensures Synced(r.0, Screen) || (!w.postProcessing && r.0 == m)
    ensures r.0.fbo == m.fbo
    ensures EndsWith(r.1, [SwapBuffers] + Throttle(w.maxMsPerFrame, input.elapsedNs))
    ensures NoDraws(r.1)
  {
    var (m', post) := if w.postProcessing then PostProcess(w, m, input) else (m, []);
    var head := [RenderComplete] + post;
    var rest := [SwapBuffers] + Throttle(w.maxMsPerFrame, input.elapsedNs);
    NoDrawsAppend([RenderComplete], post);
    NoDrawsAppend(head, rest);
    SuffixOfAppend(head, rest, |rest|);
    (m', head + rest)
  }

  /** One frame after event dispatch. */
  function Draw(w: Window, input: FrameInput): (r: (Window, seq<Call>))
    requires WellFormed(w)
    ensures r.0 == w.(fbm := r.0.fbm)
    ensures Synced(r.0.fbm, Screen) && r.0.fbm.fbo == w.fbm.fbo
    ensures |r.1| > 0 && r.1[0] == CameraUpdate
  {
    var sel := Select(w.fbm, SceneTarget(w));
    var tail := FrameTail(w, sel.0, input);
    var pre := [CameraUpdate] + sel.1 + Passes(w, w.numPasses);
    assert (pre + tail.1)[0] == pre[0];
    (w.(fbm := tail.0), pre + tail.1)
  }

  /** `s` ends with `suffix`. */
  predicate EndsWith(s: seq<Call>, suffix: seq<Call>) {
    |suffix| <= |s| && s[|s| - |suffix|..] == suffix
  }

  /** A suffix of `b` is a suffix of `a + b`. */
  lemma KeepsSuffix(a: seq<Call>, b: seq<Call>, suffix: seq<Call>)
    requires EndsWith(b, suffix)
    ensures EndsWith(a + b, suffix)
  {
    SuffixOfAppend(a, b, |suffix|);
  }

  lemma SuffixOfAppend<T>(a: seq<T>, b: seq<T>, n: nat)
    requires n <= |b|
    ensures (a + b)[|a + b| - n..] == b[|b| - n..]
  {
    assert (a + b)[|a + b| - n..] == (a + b)[|a|..][|b| - n..];
    assert (a + b)[|a|..] == b;
  }

  /** The frame ends by presenting, then sleeps for the rest of the budget exactly when
      a cap is set and the frame took fewer whole milliseconds than the cap. */
  lemma FrameThrottles(w: Window, input: FrameInput)
    requires WellFormed(w)
    ensures EndsThrottled(Draw(w, input).1, w.maxMsPerFrame, input.elapsedNs)
  {
    FrameEndsPresenting(w, input);
    EndsWithThrottle(Draw(w, input).1, w.maxMsPerFrame, input.elapsedNs);
  }

  /** A frame's last calls are the presentation followed by the throttle. */
  lemma FrameEndsPresenting(w: Window, input: FrameInput)
    requires WellFormed(w)
    ensures EndsWith(Draw(w, input).1, [SwapBuffers] + Throttle(w.maxMsPerFrame, input.elapsedNs))
  {
    var sel := Select(w.fbm, SceneTarget(w));
    var tail := FrameTail(w, sel.0, input);
    var pre := [CameraUpdate] + sel.1 + Passes(w, w.numPasses);
    assert Draw(w, input).1 == pre + tail.1;
    KeepsSuffix(pre, tail.1, [SwapBuffers] + Throttle(w.maxMsPerFrame, input.elapsedNs));
  }

  /** The trace ends by presenting, then sleeping for the rest of the budget exactly when
      a cap is set and fewer whole milliseconds than the cap have elapsed. */
  predicate EndsThrottled(calls: seq<Call>, cap: Option<nat>, elapsedNs: nat)
  {
    var elapsed := Millis(elapsedNs);
    && (cap.Some? && elapsed < cap.value ==>
          |calls| >= 2 && calls[|calls| - 2] == SwapBuffers && calls[|calls| - 1] == Sleep(cap.value - elapsed))
    && (!(cap.Some? && elapsed < cap.value) ==> |calls| >= 1 && calls[|calls| - 1] == SwapBuffers)
  }

  /** Any trace ending in the presentation and the throttle ends in a sleep exactly when
      the budget is not used up. */
  lemma EndsWithThrottle(calls: seq<Call>, cap: Option<nat>, elapsedNs: nat)
    requires EndsWith(calls, [SwapBuffers] + Throttle(cap, elapsedNs))
    ensures EndsThrottled(calls, cap, elapsedNs)
  {
    var th := Throttle(cap, elapsedNs);
    var tail := calls[|calls| - |th| - 1..];
    assert calls[|calls| - |th| - 1] == tail[0];
    if th != [] {
      assert calls[|calls| - 1] == tail[1];
    }
  }

  /** Each camera pass draws every visible object once, in list order, and nothing
      else in the frame draws. */
  lemma FrameDraws(w: Window, input: FrameInput)
    requires WellFormed(w)
    ensures DrawCounts(Draw(w, input).1) == Repeat(w.numPasses, VisibleDraws(w.store, w.objects))
  {
    var sel := Select(w.fbm, SceneTarget(w));
    var tail := FrameTail(w, sel.0, input);
    var pre := [CameraUpdate] + sel.1;
    assert Draw(w, input).1 == pre + Passes(w, w.numPasses) + tail.1;
    SelectHasNoDraws(w.fbm, SceneTarget(w));
    NoDrawsAppend([CameraUpdate], sel.1);
    CountsBetween(pre, Passes(w, w.numPasses), tail.1);
  }

  lemma SelectHasNoDraws(m: Manager, t: RenderTarget)
    ensures NoDraws(Select(m, t).1)
  {
    var calls := Select(m, t).1;
    forall k | 0 <= k < |calls| ensures !calls[k].DrawElements? {
      assert calls[k] in {BindFramebuffer(FboOf(m, t)), AttachColor(TextureId(t)), AttachDepth(DepthId(t))};
    }
  }

  /** The passes of a frame run in order, 0 to n - 1, and each hands the camera matrices
      to the line program before the object program. Nothing else in the frame starts a
      pass or uploads the camera. */
  lemma FramePasses(w: Window, input: FrameInput)
    requires WellFormed(w)
    ensures CameraCalls(Draw(w, input).1) == PassSchedule(w.numPasses)
  {
    var sel := Select(w.fbm, SceneTarget(w));
    var tail := FrameTail(w, sel.0, input);
    var pre := [CameraUpdate] + sel.1;
    assert Draw(w, input).1 == pre + Passes(w, w.numPasses) + tail.1;
    SelectHasNoCameraCalls(w.fbm, SceneTarget(w));
    NoCameraCallsAppend([CameraUpdate], sel.1);
    TailHasNoCameraCalls(w, sel.0, input);
    CameraCallsBetween(pre, Passes(w, w.numPasses), tail.1);
    PassesFollowSchedule(w, w.numPasses);
  }

  lemma SelectHasNoCameraCalls(m: Manager, t: RenderTarget)
    ensures NoCameraCalls(Select(m, t).1)
  {
    var calls := Select(m, t).1;
    forall k | 0 <= k < |calls| ensures !calls[k].StartPass? && !calls[k].UploadCamera? {
      assert calls[k] in {BindFramebuffer(FboOf(m, t)), AttachColor(TextureId(t)), AttachDepth(DepthId(t))};
    }
  }

  lemma TailHasNoCameraCalls(w: Window, m: Manager, input: FrameInput)
    ensures NoCameraCalls(FrameTail(w, m, input).1)
  {
    var (m', post) := if w.postProcessing then PostProcess(w, m, input) else (m, []);
    var th := Throttle(w.maxMsPerFrame, input.elapsedNs);
    assert FrameTail(w, m, input).1 == ([RenderComplete] + post) + ([SwapBuffers] + th);
    if w.postProcessing {
      var fill := if w.wireframe then [PolygonMode(FillMode)] else [];
      var back := Select(m, Screen).1;
      var effect := [PostProcessUpdate(0.016, input.width, input.height, input.znear, input.zfar),
                     PostProcessDraw(TextureId(w.ppTarget), DepthId(w.ppTarget))];
      assert post == fill + back + effect;
      SelectHasNoCameraCalls(m, Screen);
      NoCameraCallsAppend(fill, back);
      NoCameraCallsAppend(fill + back, effect);
    }
    NoCameraCallsAppend([RenderComplete], post);
    NoCameraCallsAppend([SwapBuffers], th);
    NoCameraCallsAppend([RenderComplete] + post, [SwapBuffers] + th);
  }

  /** The frame's draws all land in the scene target: with an effect attached, the
      offscreen framebuffer carrying the post-processing target's colour and depth
      textures, which the effect later reads; otherwise the screen. The manager's cache
      of the driver state stays sound across the frame. */
  lemma DrawTargetsScene(w: Window, input: FrameInput, gl: GlState)
    requires WellFormed(w) && Mirrors(w.fbm, gl)
    ensures DrawsInto(gl, Draw(w, input).1, FboOf(w.fbm, SceneTarget(w)), SceneTarget(w))
    ensures w.postProcessing ==> DrawsInto(gl, Draw(w, input).1, FboOf(w.fbm, w.ppTarget), w.ppTarget)
    ensures !w.postProcessing ==> DrawsInto(gl, Draw(w, input).1, 0, Screen)
    ensures Mirrors(Draw(w, input).0.fbm, Run(gl, Draw(w, input).1))
  {
    var t := SceneTarget(w);
    var f := FboOf(w.fbm, t);
    var sel := Select(w.fbm, t);
    var pre := [CameraUpdate] + sel.1;
    var passes := Passes(w, w.numPasses);
    var tail := FrameTail(w, sel.0, input);
    assert Draw(w, input).1 == pre + passes + tail.1;
    PrefixTargets(w, gl);
    var gl1 := Run(gl, pre);
    NeutralRun(gl1, passes);
    NeutralDrawsInto(gl1, passes, f, t);
    DrawsIntoAppend(gl, pre, passes, f, t);
    RunAppend(gl, pre, passes);
    NoDrawsInto(gl1, tail.1, f, t);
    DrawsIntoAppend(gl, pre + passes, tail.1, f, t);
    RunAppend(gl, pre + passes, tail.1);
    TailKeepsMirror(w, sel.0, gl1, input);
  }

  /** The start of a frame selects the scene target and draws nothing. */
  lemma PrefixTargets(w: Window, gl: GlState)
    requires Mirrors(w.fbm, gl)
    ensures var sel := Select(w.fbm, SceneTarget(w));
      var gl1 := Run(gl, [CameraUpdate] + sel.1);
      && Mirrors(sel.0, gl1)
      && RendersInto(gl1, FboOf(w.fbm, SceneTarget(w)), SceneTarget(w))
      && DrawsInto(gl, [CameraUpdate] + sel.1, FboOf(w.fbm, SceneTarget(w)), SceneTarget(w))
  {
    SelectAfter(w.fbm, SceneTarget(w), gl, CameraUpdate);
  }

  /** A draw-free call followed by a selection leaves target `t` selected. */
  lemma SelectAfter(m: Manager, t: RenderTarget, gl: GlState, c: Call)
    requires Mirrors(m, gl) && !c.DrawElements? && Step(gl, c) == gl
    ensures var sel := Select(m, t);
      var gl1 := Run(gl, [c] + sel.1);
      && Mirrors(sel.0, gl1)
      && RendersInto(gl1, FboOf(m, t), t)
      && DrawsInto(gl, [c] + sel.1, FboOf(m, t), t)
  {
    var sel := Select(m, t);
    RunAppend(gl, [c], sel.1);
    RunOne(gl, c);
    SelectSound(m, t, gl);
    SelectHasNoDraws(m, t);
    NoDrawsAppend([c], sel.1);
    NoDrawsInto(gl, [c] + sel.1, FboOf(m, t), t);
  }

  lemma TailKeepsMirror(w: Window, m1: Manager, gl1: GlState, input: FrameInput)
    requires Mirrors(m1, gl1)
    ensures Mirrors(FrameTail(w, m1, input).0, Run(gl1, FrameTail(w, m1, input).1))
  {
    var (m2, post) := if w.postProcessing then PostProcess(w, m1, input) else (m1, []);
    var th := Throttle(w.maxMsPerFrame, input.elapsedNs);
    assert FrameTail(w, m1, input) == (m2, ([RenderComplete] + post) + ([SwapBuffers] + th));
    RunOne(gl1, RenderComplete);
    RunAppend(gl1, [RenderComplete], post);
    var gl2 := Run(gl1, [RenderComplete] + post);
    if w.postProcessing {
      PostProcessKeepsMirror(w, m1, gl1, input);
    }
    assert Mirrors(m2, gl2);
    RunOne(gl2, SwapBuffers);
    RunAppend(gl2, [SwapBuffers], th);
    NeutralRun(Run(gl2, [SwapBuffers]), th);
    RunAppend(gl1, [RenderComplete] + post, [SwapBuffers] + th);
  }

  lemma PostProcessKeepsMirror(w: Window, m: Manager, gl: GlState, input: FrameInput)
    requires Mirrors(m, gl)
    ensures Mirrors(PostProcess(w, m, input).0, Run(gl, PostProcess(w, m, input).1))
  {
    var fill := if w.wireframe then [PolygonMode(FillMode)] else [];
    var (m', back) := Select(m, Screen);
    var effect := [PostProcessUpdate(0.016, input.width, input.height, input.znear, input.zfar),
                   PostProcessDraw(TextureId(w.ppTarget), DepthId(w.ppTarget))];
    assert PostProcess(w, m, input) == (m', fill + back + effect);
    NeutralRun(gl, fill);
    RunAppend(gl, fill, back);
    SelectSound(m, Screen, gl);
    RunAppend(gl, fill + back, effect);
    NeutralRun(Run(gl, fill + back), effect);
  }
}
